=== FILE: README.md ===
# Proyojon marketplace app: the rules inside its screens

Proyojon is a React Native marketplace. Users post ads, browse them, bid on
auction ads and chat with each other about an ad. The screens keep the
rules of the app inline, next to their Firestore calls. This project
models those rules as pure Dafny functions over immutable data and proves
what the screens promise about them:

- **Auctions.** There are two bidding screens (the ad details screen and
  the stand-alone place-bid screen). The model covers:
  - the minimum next bid;
  - each screen's ordered bid validator;
  - the writes an accepted bid makes;
  - the five-minute anti-snipe extension;
  - the suggested amounts;
  - the remaining-time labels.
- **Conversations.** A conversation is one document per pair of users and
  ad, with id `larger.smaller.adId`. The model covers:
  - the unread rule (`lastUnread === true` and the last sender is someone
    else);
  - the unread count and badge;
  - the per-conversation counts keyed by the id read back;
  - the reset on opening a conversation;
  - sending, with the optimistic local append and, in the two-pane
    screen, the rollback;
  - the conversation list ordered unread first.
- **Listings.** The model covers:
  - the price read from legacy field names;
  - the price's numeric value;
  - the title search and the free-only filter;
  - the two price sorts;
  - paging on the browse screen;
  - the updates feed of ads matching the user's interests;
  - picking and removing images when posting an ad;
  - the posted ad document;
  - the seller profile's social links and price label.

Modules follow the source files:
- `Auctions` holds the auction rules both bidding screens share.
- `Conversations` holds the conversation rules all the chat screens share.
- `DetailedAdScreen`, `PlaceBidScreen`, `HomeScreen`, `ChatUsersScreen`,
  `ChatIconWithBadge`, `ChatsScreen`, `ChatMessagesScreen`,
  `UpdatesScreen`, `PostAdScreen` and `SellerProfile` each model one
  screen or component.
- `Text` models the JavaScript string operations the rules use:
  - `trim`, `toLowerCase` and `includes`;
  - `split` and `join`;
  - number to string;
  - `parseFloat`;
  - the string `>` comparison.
- `Sequences` provides filtering, subsequences and a stable sort.
- `Wrappers` provides `Option` and `Result`.

The model follows these conventions:
- Money is whole taka and times are milliseconds, both as unbounded
  integers.
- A missing numeric field is 0, because JavaScript's `x || d` treats
  `undefined` and `0` alike.
- Everything a screen reads from the outside world is a parameter: fetched
  documents, the current time, the image library's answer and the upload
  result. Whether a write succeeded is a parameter only where the source
  reacts to a failed write: the two chat sends and posting an ad.

Behaviour of the source worth noting:
- On the details screen a first bid equal to the starting price is refused
  when there is no current bid. The minimum is `max(currentBid,
  startingPrice) + increment`, so with starting price 100 and increment 50
  the minimum is 150 (`DetailedAdScreen.FirstBidScenario`).
- A bid on an ended auction is not refused as ended when it is also too
  low. The too-low check runs first (`DetailedAdScreen.TooLowWinsOverLaterChecks`).
- The seller check is not part of either validator. Only the details
  screen's `openBidModal` stops a seller, and the place-bid screen accepts
  a seller's bid (`PlaceBidScreen.SellerBidAccepted`).
- The two screens disagree on the default increment. The details screen
  and the place-bid suggestion use 50, but the place-bid validator uses 1.
  Each module keeps its own constant.

## Model

| member | source | states |
|---|---|---|
| Auctions.MinBid | navigation/screens/DetailedAdScreen.jsx:348-354 | the minimum exceeds the higher of current bid and starting price by exactly the increment, 50 when unset |
| Auctions.BidderName | navigation/screens/DetailedAdScreen.jsx:257 | the bidder name is never empty: display name, else e-mail, else "Anonymous" |
| Auctions.RecordBid | navigation/screens/DetailedAdScreen.jsx:267-283 | an accepted bid becomes the current bid of its bidder, one entry is appended after the unchanged old list, bidCount rises by one, nothing else changes |
| Auctions.AntiSnipe | navigation/screens/DetailedAdScreen.jsx:285-294 | a bid in the last five minutes moves the end to five minutes after the bid and marks the auction extended; otherwise nothing changes; the end never moves earlier |
| Auctions.Decompose | navigation/screens/PlaceBid.jsx:273-275 | days, hours below 24 and minutes below 60 add up to the remaining time minus less than a minute |
| DetailedAdScreen.ValidateBid | navigation/screens/DetailedAdScreen.jsx:195-242 | each refusal happens exactly when every earlier check passed and its own fails, in the order no auction, not a number, too low, not active, ended, already highest; an accepted bid is the parsed amount |
| DetailedAdScreen.PlaceBid | navigation/screens/DetailedAdScreen.jsx:244-318 | a bid is placed exactly when it validates; a refusal carries the validator's alert; an accepted bid updates the auction, bidder list, count, last bid time and end as stated, and writes the bid record |
| DetailedAdScreen.LocalAfterBid | navigation/screens/DetailedAdScreen.jsx:297-305 | the screen's copy changes only the current bid, current bidder and bid count |
| DetailedAdScreen.AcceptedBidRaises | navigation/screens/DetailedAdScreen.jsx:204-218 | with a non-negative increment an accepted bid exceeds the previous bid and the starting price |
| DetailedAdScreen.NextSuggestionIsMinBid | navigation/screens/DetailedAdScreen.jsx:316-318 | after an accepted bid the suggested next bid equals the minimum shown for the stored and for the local copy |
| DetailedAdScreen.TooLowWinsOverLaterChecks | navigation/screens/DetailedAdScreen.jsx:207-232 | a bid under the minimum is refused as too low whatever the status, end time or current bidder |
| DetailedAdScreen.OpenBidModal | navigation/screens/DetailedAdScreen.jsx:328-334 | the modal is refused exactly to the ad's poster, with the seller alert |
| DetailedAdScreen.TimeRemaining | navigation/screens/DetailedAdScreen.jsx:172-193 | no label exactly without an auction end; "Auction Ended" exactly when the auction has an end that has passed; otherwise "D days, H hours" with days, "H hours, M minutes" with hours but no days, else "M minutes", the numbers being the whole days, hours and minutes left |
| DetailedAdScreen.InitialSuggestionAsWritten | navigation/screens/DetailedAdScreen.jsx:67-72 | the first suggestion as written is the minimum minus the increment plus one |
| DetailedAdScreen.InitialSuggestionRejected | navigation/screens/DetailedAdScreen.jsx:67-72 | with the default increment the written suggestion 101 is refused as too low (minimum 150) |
| DetailedAdScreen.InitialSuggestion | navigation/screens/DetailedAdScreen.jsx:348-354 | the intended first suggestion is the minimum bid |
| DetailedAdScreen.InitialSuggestionPassesMinimum | navigation/screens/DetailedAdScreen.jsx:207-218 | the intended suggestion is never refused as too low or unreadable |
| DetailedAdScreen.FirstBidScenario | navigation/screens/DetailedAdScreen.jsx:195-218 | starting price 100, increment 50: bids 100 and 120 are refused with minimum 150, a bid of 150 is placed with one bidder entry |
| DetailedAdScreen.LateBidScenario | navigation/screens/DetailedAdScreen.jsx:285-294 | a bid three minutes before the end moves it to five minutes after the bid |
| PlaceBidScreen.SuggestedBid | navigation/screens/PlaceBid.jsx:61-66 | the loaded suggestion exceeds current bid and starting price by the suggestion step, and is one of them plus that step |
| PlaceBidScreen.QuickBids | navigation/screens/PlaceBid.jsx:106-114 | four amounts starting at the minimum, strictly rising for a positive step, never under the minimum for a non-negative one |
| PlaceBidScreen.ValidateBid | navigation/screens/PlaceBid.jsx:116-174 | as on the details screen with default increment 1, plus the maximum-bid refusal between the end check and the highest-bidder check; an accepted maximum is at least the bid |
| PlaceBidScreen.PlaceBid | navigation/screens/PlaceBid.jsx:176-228 | a bid is placed exactly when it validates; the stored auction, bidder entry with its auto-bid flag and count are as stated; outside the last five minutes the end and the extended flag are unchanged; the record carries the ad id, bidder name, time and the maximum (the parsed maximum with automatic bidding, else the bid) |
| PlaceBidScreen.QuickBidsPassMinimum | navigation/screens/PlaceBid.jsx:61-67 | every quick bid offered on load clears the validator's minimum |
| PlaceBidScreen.MaxBelowBidRefused | navigation/screens/PlaceBid.jsx:153-162 | with automatic bidding, a maximum below the bid is refused once the earlier checks pass |
| PlaceBidScreen.SellerBidAccepted | navigation/screens/PlaceBid.jsx:116-174 | the seller's own valid bid is accepted |
| PlaceBidScreen.PlaceBidAsWritten | navigation/screens/PlaceBid.jsx:176-250 | as written, a bid that validates leaves the ad unchanged and shows the "Could not place bid" alert, and the bid record is still stored, equal to the record of the corrected placement; refusals are the validator's |
| PlaceBidScreen.SentinelBidNeverPlaced | navigation/screens/PlaceBid.jsx:201-217 | the entry's server-time sentinel is refused inside an array while a client time is not; so for every valid bid the code as written keeps the bid count and shows the alert, while the corrected placement raises the count by one with the same record |
| PlaceBidScreen.FirstBidLostAsWritten | navigation/screens/PlaceBid.jsx:194-217 | a valid first bid of 150 is stored as a record while the auction still shows no current bid and no bidders |
| PlaceBidScreen.TimeRemaining | navigation/screens/PlaceBid.jsx:264-280 | "Unknown" exactly without an end time; "Auction Ended" exactly once it has passed; otherwise "Dd Hh Mm" with days, "Hh Mm" with hours but no days, else "Mm", the numbers being the whole days, hours and minutes left |
| HomeScreen.FirstPresent | navigation/screens/Home.jsx:64-68 | missing exactly when every field is missing; otherwise the value of the first present field |
| HomeScreen.GetPriceFromAd | navigation/screens/Home.jsx:55-71 | never missing; the bid or starting bid for auctions; otherwise the first present price field, or "free" when none is present |
| HomeScreen.PriceToNumber | navigation/screens/Home.jsx:74-98 | the auction price for auctions; 0 for a falsy price or the word "free"; otherwise the number read from the lower-cased, trimmed price after every character other than digits, '.' and '-' is removed, 0 when none can be read |
| HomeScreen.KeepNumericIsFilter | navigation/screens/Home.jsx:93 | the stripped price is exactly the price's digits, '.' and '-' characters, in order |
| HomeScreen.PlainTextPrice | navigation/screens/Home.jsx:80-97 | a text price without capitals or surrounding white space, other than "free", reads as the number in its digits, '.' and '-' characters |
| HomeScreen.TakaPriceReadsBack | navigation/screens/Home.jsx:93-97 | a price "৳" followed by the numeral of n reads as n |
| HomeScreen.GroupedTakaPriceReadsBack | navigation/screens/Home.jsx:93-97 | a price "৳", a numeral, a comma and three digits reads as the thousands times 1000 plus the group |
| HomeScreen.GroupedTakaExample | navigation/screens/Home.jsx:93-97 | the price "৳1,500" reads as 1500 |
| HomeScreen.NumericPriceRoundTrip | navigation/screens/Home.jsx:80-97 | a price stored as the number n reads back as n |
| HomeScreen.FreeIffZeroPrice | navigation/screens/Home.jsx:142-148 | the free-only test holds exactly for ads whose price reads as 0 |
| HomeScreen.SearchFilter | navigation/screens/Home.jsx:133-139 | a blank query keeps all ads; otherwise exactly the ads with a title containing the query, ignoring case, in order, every copy of them kept |
| HomeScreen.PriceStage | navigation/screens/Home.jsx:142-164 | "free" keeps exactly the zero-priced ads, every copy, in order; the two sorts give a permutation ordered by price; any other choice keeps the list |
| HomeScreen.SortKeepsEqualPricesInOrder | navigation/screens/Home.jsx:149-162 | both price sorts keep ads of equal derived price, such as all the free ones, in the order they were fetched |
| HomeScreen.GetAds | navigation/screens/Home.jsx:132-173 | the first page searched then price-staged; more pages exactly after a full page of 10 |
| HomeScreen.NewPagePart | navigation/screens/Home.jsx:209-218 | the searched page, without auctions when they are hidden, in order, every copy of the others kept |
| HomeScreen.LoadMoreAds | navigation/screens/Home.jsx:182-238 | nothing changes without more pages, during a load or without a cursor; otherwise the price stage over old ads then the new part, and more pages exactly after a full page |
| HomeScreen.LoadMoreAppends | navigation/screens/Home.jsx:221 | without a price choice, loading more keeps the old list as a prefix and appends the new part |
| Conversations.OwnMessageNeverUnread | navigation/components/ChatIconWithBadge.js:33 | a conversation whose last message I sent is never unread for me |
| Conversations.CountUnread | navigation/components/ChatIconWithBadge.js:28-39 | the count is at most the number of conversations, and 0 exactly when none is unread |
| Conversations.CountUnreadIsFilterLength | navigation/components/ChatIconWithBadge.js:28-39 | the count is the length of the list of unread conversations |
| Conversations.UnreadIsReset | navigation/screens/Chats.jsx:153 | every conversation counted unread is one that opening clears |
| Conversations.MarkRead | navigation/screens/Chats.jsx:151-158 | after the reset the conversation is neither unread nor in need of a reset; only the flag changes, and only when needed |
| Conversations.ResetUnread | navigation/screens/ChatMessagesScreen.jsx:55-60 | a missing conversation or one that needs no reset is left alone; otherwise only its flag is cleared; other conversations and threads are unchanged |
| Conversations.ResetUnreadIdempotent | navigation/screens/ChatMessagesScreen.jsx:55-60 | a second reset changes nothing |
| Conversations.RecordSend | navigation/screens/Chats.jsx:285-289 | after a send the conversation is unread for every other user and not for the sender; only text, sender and flag change |
| Conversations.AppendToThread | navigation/screens/Chats.jsx:283 | the message goes at the end of its thread, the thread is created if needed, other threads are unchanged |
| Conversations.ChatIdSymmetric | navigation/screens/Chats.jsx:135-137 | both participants compute the same conversation id |
| Conversations.FindOther | navigation/screens/Chats.jsx:54 | none exactly when every id is mine; otherwise the first id that is not mine |
| Conversations.ChatKeyOfChatId | navigation/screens/Chats.jsx:53-57 | for distinct dot-free ids, the key read back from a conversation id is the other user's id, '-', the ad id |
| ChatUsersScreen.Row | navigation/screens/ChatUsersScreen.jsx:63-86 | a row exists exactly when the ad and the counterpart's profile exist, and carries id, ad, profile, unread status and update time |
| ChatUsersScreen.Collect | navigation/screens/ChatUsersScreen.jsx:54-95 | the collected rows are exactly the rows of the conversations |
| ChatUsersScreen.UnreadStatus | navigation/screens/ChatUsersScreen.jsx:54-61 | the map has exactly the conversations' ids, each with the unread status of its last document |
| ChatUsersScreen.ChatList | navigation/screens/ChatUsersScreen.jsx:97-104 | the list is a permutation of the collected rows ordered unread first, then most recent first |
| ChatUsersScreen.UnreadRowsFirst | navigation/screens/ChatUsersScreen.jsx:98-100 | every unread row comes before every read row |
| ChatUsersScreen.RecentFirstWithinStatus | navigation/screens/ChatUsersScreen.jsx:101 | rows of equal status run from the most to the least recently updated |
| ChatUsersScreen.RowsNeedAdAndCounterpart | navigation/screens/ChatUsersScreen.jsx:75-86 | a row is listed exactly when some conversation yields it |
| ChatUsersScreen.UnreadMapCoversAllDocs | navigation/screens/ChatUsersScreen.jsx:54-61 | the unread map has an entry for every conversation, also one that gets no row because its ad or counterpart is missing |
| ChatUsersScreen.SnapshotAsWritten | navigation/screens/ChatUsersScreen.jsx:50-106 | the handler as written sets nothing exactly when some conversation has no other participant; otherwise it sets the unread map and the rows of the conversations ordered unread first |
| ChatUsersScreen.SelfChatHidesList | navigation/screens/ChatUsersScreen.jsx:63-68 | a conversation with myself next to a listable one makes the handler set nothing, although the corrected list shows the listable row |
| ChatIconWithBadge.UnreadCount | navigation/components/ChatIconWithBadge.js:14-40 | 0 when nobody is signed in; otherwise the number of unread conversations |
| ChatIconWithBadge.BadgeLabel | navigation/components/ChatIconWithBadge.js:49-55 | no badge exactly at 0 or less; "99+" exactly above 99; otherwise the count's numeral, which reads back as the count |
| ChatsScreen.Tally | navigation/screens/Chats.jsx:45-61 | the total is the unread count; the map has exactly the keys of unread conversations, each with how many have it |
| ChatsScreen.UnreadCountFor | navigation/screens/Chats.jsx:296-301 | 0 without an entry, its ad or its counterpart; otherwise the count under `other-adId`, 0 when absent |
| ChatsScreen.UnreadConversationCounted | navigation/screens/Chats.jsx:48-59 | an unread conversation with another user about an ad shows at least 1 on that user's entry |
| ChatsScreen.SelectUser | navigation/screens/Chats.jsx:130-159 | no change without an entry, its ad or counterpart; otherwise the reset of the conversation with the counterpart |
| ChatsScreen.GetChat | navigation/screens/Chats.jsx:163-207 | no change without an ad id; otherwise the reset of the conversation with the ad's poster |
| ChatsScreen.GetChatMatchesSelectUser | navigation/screens/Chats.jsx:130-207 | opening the chat from the ad's page resets the same conversation as opening the poster's list entry, and clears its flag only when the last sender is someone else and the flag is truthy |
| ChatsScreen.OpenClearsOnlyWhenNeeded | navigation/screens/Chats.jsx:151-158 | opening clears the flag exactly when the last sender is someone else and the flag is truthy |
| ChatsScreen.Rollback | navigation/screens/Chats.jsx:292 | exactly the messages with other temporary ids stay, in order, every copy of them kept |
| ChatsScreen.RollbackUndoesAppend | navigation/screens/Chats.jsx:279-292 | rolling back an appended message with a new temporary id restores the list |
| ChatsScreen.Submit | navigation/screens/Chats.jsx:264-294 | no change without a chat, ad, counterpart or text; otherwise the text is cleared, the message kept only when both writes succeed, and rolled back otherwise |
| ChatsScreen.DeliveredIsUnreadForCounterpart | navigation/screens/Chats.jsx:282-289 | after a delivered send the conversation is unread for the counterpart and not for the sender |
| ChatsScreen.RemoveConversation | navigation/screens/Chats.jsx:115-117 | exactly the entries for the deleted chat's ad leave the list; every copy of the others stays, in order |
| ChatMessagesScreen.SameConversationBothWays | navigation/screens/ChatMessagesScreen.jsx:40-43 | both participants' screens open the same conversation |
| ChatMessagesScreen.CheckAndResetUnread | navigation/screens/ChatMessagesScreen.jsx:55-60 | the flag is cleared only for an existing conversation whose last sender is someone else and whose flag is truthy |
| ChatMessagesScreen.CheckAndResetIdempotent | navigation/screens/ChatMessagesScreen.jsx:55-60 | resetting twice is resetting once |
| ChatMessagesScreen.Submit | navigation/screens/ChatMessagesScreen.jsx:91-113 | the message is always appended locally and the text cleared; the thread and conversation are written as far as the network allows |
| ChatMessagesScreen.ResetAfterOwnSendIsNoOp | navigation/screens/ChatMessagesScreen.jsx:55-60 | after my own delivered message, my reset finds nothing to clear |
| ChatMessagesScreen.FailedSendKeepsLocalMessage | navigation/screens/ChatMessagesScreen.jsx:97-112 | a failed send still leaves the message on screen |
| UpdatesScreen.Cursor | navigation/screens/Updates.jsx:55-62 | a reset starts from the top; otherwise the query continues after the last document |
| UpdatesScreen.FetchInterested | navigation/screens/Updates.jsx:32-102 | no interests empties list and count; an empty page stops paging; otherwise the matching ads replace the list on reset or are appended when new, and the count follows |
| UpdatesScreen.MatchingIsOrderedSubset | navigation/screens/Updates.jsx:77-85 | the matching ads are exactly the page's ads of interest posted by others, every copy, in page order |
| UpdatesScreen.FetchKeepsIdsDistinct | navigation/screens/Updates.jsx:88-91 | loading more never shows an ad id twice |
| UpdatesScreen.FormatDate | navigation/screens/Updates.jsx:168-179 | "Today" under a day, "1 day ago" under two, "n days ago" under seven with n the whole days, the date itself from a week on |
| UpdatesScreen.DaysAgoReadsBack | navigation/screens/Updates.jsx:177 | the number in "n days ago" reads back as n |
| PostAdScreen.FileName | navigation/screens/PostAd.jsx:96-97 | the asset's file name, else the last '/'-free segment of its uri |
| PostAdScreen.NewImages | navigation/screens/PostAd.jsx:95-104 | one image per selected asset, in order, with id, uri and name |
| PostAdScreen.PickImages | navigation/screens/PostAd.jsx:69-112 | at five images the pick is refused; never more than five; only the first free-slot assets are added after the old images, with the limit alert exactly when more were chosen |
| PostAdScreen.PickIdsDistinct | navigation/screens/PostAd.jsx:100 | the images of one pick have distinct ids |
| PostAdScreen.RemoveImage | navigation/screens/PostAd.jsx:114-116 | exactly the images with other ids stay, in order, every copy of them kept |
| PostAdScreen.RemoveAbsentId | navigation/screens/PostAd.jsx:114-116 | removing an id no image has changes nothing |
| PostAdScreen.NewAd | navigation/screens/PostAd.jsx:201-214 | the ad document carries the form's fields, the uploaded images, the default location for an empty one, the donation flag exactly for a price "free" or "0", the poster, the time and the e-mail when there is one, and no ad id yet |
| PostAdScreen.SubmitAd | navigation/screens/PostAd.jsx:188-239 | refused exactly when a required field is empty, an upload fails, or one of the three writes fails, each with its message; a failed write leaves no ad, an ad without its id, or an ad with its id and no favourites document; on success the ad carries its id and the form's contents, the favourites document has the same id, and the form and images are cleared |
| PostAdScreen.FailedWriteKeepsAd | navigation/screens/PostAd.jsx:216-239 | when the id merge fails the stored ad is the posted one without its id; when the favourites write fails it is the posted ad itself |
| PostAdScreen.DonatedAdListedFree | navigation/screens/PostAd.jsx:210 | an ad posted as a donation reads as price 0 and passes the browse screen's free filter |
| SellerProfile.SocialUrl | navigation/components/SellerProfile.js:75-106 | no address for an empty user name or an unknown platform; otherwise the platform's prefix then the user name |
| SellerProfile.UrlIdentifiesPlatform | navigation/components/SellerProfile.js:79-101 | an address determines its platform and user name |
| SellerProfile.Buttons | navigation/components/SellerProfile.js:224-238 | exactly the platforms with a user name get a button, in display order |
| SellerProfile.NoSocialsIffNoLink | navigation/components/SellerProfile.js:240-242 | the no-links note shows exactly when there is no button and no address |
| SellerProfile.FormatPrice | navigation/components/SellerProfile.js:112-129 | "N/A" without an ad; an auction shows the taka sign then the bid when positive, else the starting price; otherwise "Free", "Price not set" or the price, each exactly in its case |

## Left out

- Firestore, Storage and authentication calls are left out. Fetched
  documents, the current time, the image library's answer and the upload
  result are parameters. The outcome of a write is a parameter of
  `ChatsScreen.Submit`, `ChatMessagesScreen.Submit` and
  `PostAdScreen.SubmitAd`. Real-time listeners, online presence, loading
  flags and alerts other than refusals are not modelled.
- `DetailedAdScreen.PlaceBid` and `PlaceBidScreen.PlaceBid` take every
  write of an accepted bid (the auction update and the bid record) as
  succeeding. A network failure there only shows an error alert, and the
  model has no outcome for it. The one failure that does not depend on the
  network, the refused bidder entry on the place-bid screen, is modelled
  separately (see Findings).
- `PlaceBidScreen.PlaceBid` writes the new bidder entry with the client's
  time `now`, as the details screen does. The source writes
  `serverTimestamp()` there, inside the `auction.bidders` array. Firestore
  refuses that sentinel inside an array, so the source's auction update
  very probably always fails. `PlaceBidScreen.PlaceBidAsWritten` models
  that outcome.
- `PostAdScreen.NewImages` uses one time `now` for every image of a pick.
  The source calls `Date.now()` once per asset, so the ids of one pick may
  carry different millisecond prefixes. Their `_index` suffixes still
  differ, so `PostAdScreen.PickIdsDistinct` holds either way.
- Races between clients are left out, including concurrent bids on the
  same auction. A screen's writes are taken as one step.
- `parseFloat` is read as an integer: optional leading whitespace, a sign
  and digits. A fractional part is dropped, so fractional amounts and
  prices are not modelled.
- `toLowerCase` is modelled on ASCII letters only. `toLocaleString` and
  `toLocaleDateString` are left out: the labels show plain numerals, and a
  date older than a week is the raw timestamp.
- The fetched page's query (category, `publishedAt` order and the
  page-size limit) is the server's work. The page is an input.
- Uploading images (fetch, blob, storage path, random names) is left out.
  Its outcome is the `upload` parameter of `PostAdScreen.SubmitAd`.
- The geography lookup for location on the posting form is left out. So is
  deleting a conversation's messages and inbox entry: only the list update
  is modelled. The Chats screen's `getList` is not modelled either.
- In `selectUser` and `handleSubmit`, reading `other.uid` without a
  counterpart throws before any write. `ChatsScreen.SelectUser` and
  `ChatsScreen.Submit` therefore leave the stored conversations unchanged.
  The chat that `selectUser` selects on screen before it throws is not
  modelled.
- `ChatUsersScreen.ChatList` skips a conversation without a counterpart.
  The handler as written aborts instead, and
  `ChatUsersScreen.SnapshotAsWritten` models that abort (see Findings).
- UpdateIconWithBadge and the updates screen's total count are not part of
  this model.
- `PlaceBidScreen.ValidateBid` and `DetailedAdScreen.ValidateBid` do not
  model a missing `endTime` as an invalid date. A missing end is `None`, so
  the ended check passes, which is what the comparison with an invalid date
  does in JavaScript.
- `DetailedAdScreen.TimeRemaining` and `PlaceBidScreen.TimeRemaining`
  treat an end time of 0 as present. The source treats it as missing,
  because 0 is falsy; an auction ending at the epoch is not a real input.
- `UpdatesScreen.FormatDate` does not model Firestore `Timestamp`
  conversion. The timestamp is in milliseconds, and a missing or zero one
  is `None`.
- `SellerProfile.FormatPrice` models a numeric `Price` field as its
  numeral string. For a numeric 0 the model therefore shows "Free", while
  the source shows "Price not set": the number 0 is not the string "0",
  and it is falsy. It also shows auction amounts without thousands
  separators.
- `HomeScreen.PriceToNumber` does not model the character stripping's
  effect on fractions or repeated signs beyond `Text.ParseNumber`.

## Findings

| source | as written | input that shows it | evidently intended | confidence | as-written member | corrected member |
|---|---|---|---|---|---|---|
| navigation/screens/DetailedAdScreen.jsx:67-72 | the bid field is first filled with `max(currentBid, startingPrice) + 1`; the increment computed on the line before is unused | a fresh auction with starting price 100 and no increment: the field shows 101, and the validator refuses it as too low because the minimum is 150 | fill the field with the minimum bid the validator asks for | not executed | DetailedAdScreen.InitialSuggestionAsWritten, DetailedAdScreen.InitialSuggestionRejected | DetailedAdScreen.InitialSuggestion, DetailedAdScreen.InitialSuggestionPassesMinimum |
| navigation/screens/ChatUsersScreen.jsx:63-68 | the counterpart's profile is read with `doc(db, 'users', users.find(id => id !== me))`; for a conversation whose participants are all me the id is `undefined`, `doc` throws, and the whole snapshot handler stops before it sets the list or the unread map | a snapshot holding one ordinary conversation with its ad and counterpart, and one conversation with `users` equal to `[me, me]`: the screen keeps its old, empty list | skip the conversation without a counterpart and list the others | not executed | ChatUsersScreen.SnapshotAsWritten, ChatUsersScreen.SelfChatHidesList | ChatUsersScreen.ChatList, ChatUsersScreen.RowsNeedAdAndCounterpart |
| navigation/screens/PlaceBid.jsx:201-217 | the new bidder entry carries `timestamp: serverTimestamp()` and is written inside the `auction.bidders` array; Firestore refuses that sentinel inside an array, so the auction update throws after the bid record was already added | any valid bid, such as 150 on a fresh auction with starting price 100: the `bids` collection gains the record, the ad keeps no current bid and no bidders, and the user sees "Could not place bid" | write the entry with the client's time, as the details screen does at DetailedAdScreen.jsx:270 | not executed | PlaceBidScreen.PlaceBidAsWritten, PlaceBidScreen.SentinelBidNeverPlaced, PlaceBidScreen.FirstBidLostAsWritten | PlaceBidScreen.PlaceBid |

=== FILE: auctions.dfy ===
/**
 * The auction sub-record embedded in an ad document, and the rules both
 * bidding screens share: the minimum next bid, the write that records an
 * accepted bid, the five-minute anti-snipe extension and the split of a
 * remaining time into days, hours and minutes.
 *
 * Money is whole taka, times are milliseconds. A numeric field that the
 * document lacks is 0, which is what JavaScript's `x || d` treats it as.
 */
module Auctions {
  import opened Wrappers

  /** Five minutes: the anti-snipe window and the length of an extension. */
  const ExtensionWindow: int := 5 * 60 * 1000

  const MsPerMinute: int := 60 * 1000
  const MsPerHour: int := 60 * MsPerMinute
  const MsPerDay: int := 24 * MsPerHour

  /** One entry of `auction.bidders`; `isAutoBid` is written by the place-bid screen only. */
  datatype Bidder = Bidder(bidderId: string, bidderName: string, bidAmount: int, timestamp: int, isAutoBid: Option<bool>)

  /** `ad.auction`. A missing `endTime` is `None`: `new Date(undefined)` compares false with every time. */
  datatype Auction = Auction(
    startingPrice: int,
    currentBid: int,
    currentBidderId: Option<string>,
    bidIncrement: int,
    endTime: Option<int>,
    status: string,
    bidders: seq<Bidder>,
    extended: bool)

  /** The fields of an ad document the bidding screens read or write. */
  datatype AdDoc = AdDoc(
    adId: string,
    postedBy: string,
    isAuction: bool,
    auction: Option<Auction>,
    bidCount: int,
    lastBidTime: Option<int>)

  /** The signed-in user placing a bid. An empty name or e-mail is a missing one. */
  datatype BidUser = BidUser(uid: string, displayName: string, email: string)

  /** A document of the `bids` collection. */
  datatype BidRecord = BidRecord(
    adId: string,
    bidderId: string,
    bidderName: string,
    bidAmount: int,
    maxBid: Option<int>,
    isAutoBid: Option<bool>,
    timestamp: int)

  /** The alerts with which the bid validators refuse a bid. */
  datatype BidError =
    | NotAnAuction
    | InvalidNumber
    | BidTooLow(minBid: int)
    | AuctionClosed
    | AuctionEnded
    | InvalidMaxBid
    | AlreadyHighestBidder
    | SellerCannotBid

  /** JavaScript's `x || d` on a number whose missing value is 0. */
  function OrDefault(x: int, d: int): int {
    if x == 0 then d else x
  }

  function Max(a: int, b: int): int {
    if a >= b then a else b
  }

  /** `Math.max(currentBid, startingPrice) + (bidIncrement || d)`. */
  function MinBid(a: Auction, defaultIncrement: int): (r: int)
    ensures var step := OrDefault(a.bidIncrement, defaultIncrement);
      && r - step >= a.currentBid
      && r - step >= a.startingPrice
      && (r - step == a.currentBid || r - step == a.startingPrice)
  {
    Max(a.currentBid, a.startingPrice) + OrDefault(a.bidIncrement, defaultIncrement)
  }

  /** `user.displayName || user.email || "Anonymous"`. */
  function BidderName(u: BidUser): (r: string)
    ensures r != ""
    ensures u.displayName != "" ==> r == u.displayName
    ensures u.displayName == "" && u.email != "" ==> r == u.email
    ensures u.displayName == "" && u.email == "" ==> r == "Anonymous"
  {
    if u.displayName != "" then u.displayName
    else if u.email != "" then u.email
    else "Anonymous"
  }

  /**
   * The `updateDoc` that records an accepted bid: the bid becomes the current
   * bid, its bidder the current bidder, the entry goes at the end of the
   * bidder list and the bid count goes up by one. Nothing else changes.
   */
  function RecordBid(ad: AdDoc, a: Auction, entry: Bidder): (r: AdDoc)
    ensures r.auction.Some?
    ensures r.auction.value.currentBid == entry.bidAmount
    ensures r.auction.value.currentBidderId == Some(entry.bidderId)
    ensures |r.auction.value.bidders| == |a.bidders| + 1
    ensures r.auction.value.bidders[..|a.bidders|] == a.bidders
    ensures r.auction.value.bidders[|a.bidders|] == entry
    ensures r.bidCount == ad.bidCount + 1
    ensures r.auction.value.(currentBid := a.currentBid, currentBidderId := a.currentBidderId, bidders := a.bidders) == a
    ensures r.(auction := ad.auction, bidCount := ad.bidCount) == ad
  {
    var updated := a.(currentBid := entry.bidAmount, currentBidderId := Some(entry.bidderId), bidders := a.bidders + [entry]);
    assert updated.bidders[..|a.bidders|] == a.bidders;
    ad.(auction := Some(updated), bidCount := ad.bidCount + 1)
  }

  /** The bid at `now` falls inside the last five minutes of a running auction. */
  predicate InLastMinutes(a: Auction, now: int) {
    a.endTime.Some? && 0 < a.endTime.value - now <= ExtensionWindow
  }

  /**
   * Anti-snipe: a bid inside the last five minutes moves the end to five
   * minutes after the bid and marks the auction extended. The end never
   * moves earlier and nothing else changes.
   */
  function AntiSnipe(a: Auction, now: int): (r: Auction)
    ensures InLastMinutes(a, now) ==> r.endTime == Some(now + ExtensionWindow) && r.extended
    ensures !InLastMinutes(a, now) ==> r == a
    ensures r.endTime.Some? <==> a.endTime.Some?
    ensures r.endTime.Some? ==> r.endTime.value >= a.endTime.value
    ensures r.(endTime := a.endTime, extended := a.extended) == a
  {
    if InLastMinutes(a, now) then a.(endTime := Some(now + ExtensionWindow), extended := true) else a
  }

  /** A positive remaining time split into whole days, hours and minutes. */
  datatype Duration = Duration(days: nat, hours: nat, minutes: nat)

  function Millis(d: Duration): int {
    d.days * MsPerDay + d.hours * MsPerHour + d.minutes * MsPerMinute
  }

  /**
   * `Math.floor(t / day)`, `Math.floor((t % day) / hour)` and
   * `Math.floor((t % hour) / minute)`: whole days, then the hours and
   * minutes left over; the seconds dropped are less than a minute.
   */
  function Decompose(t: int): (d: Duration)
    requires t > 0
    ensures d.hours < 24 && d.minutes < 60
    ensures d.days * MsPerDay <= t < (d.days + 1) * MsPerDay
    ensures Millis(d) <= t < Millis(d) + MsPerMinute
  {
    var days := t / MsPerDay;
    var inDay := t % MsPerDay;
    var hours := inDay / MsPerHour;
    var inHour := t % MsPerHour;
    var minutes := inHour / MsPerMinute;
    HourRemainder(t, days, hours);
    Duration(days, hours, minutes)
  }

  lemma HourRemainder(t: int, days: int, hours: int)
    requires t > 0 && days == t / MsPerDay && hours == (t % MsPerDay) / MsPerHour
    ensures 0 <= hours < 24
    ensures t % MsPerHour == t - days * MsPerDay - hours * MsPerHour
  {
    var inDay := t % MsPerDay;
    assert t == days * MsPerDay + inDay;
    assert inDay == hours * MsPerHour + inDay % MsPerHour;
    var q := days * 24 + hours;
    assert days * MsPerDay == days * 24 * MsPerHour;
    assert t == q * MsPerHour + inDay % MsPerHour;
    ModOfMultiplePlus(q, inDay % MsPerHour, MsPerHour);
  }

  lemma ModOfMultiplePlus(q: int, r: int, m: int)
    requires m > 0 && 0 <= r < m
    ensures (q * m + r) % m == r
  {
    var n := q * m + r;
    var k, rem := n / m, n % m;
    assert n == k * m + rem;
    var x := q - k;
    assert x * m == rem - r by {
      assert x * m == q * m - k * m;
    }
    if x >= 1 {
      assert x * m >= m by { MulAtLeast(x, m); }
    } else if x <= -1 {
      assert (-x) * m >= m by { MulAtLeast(-x, m); }
    }
  }

  lemma MulAtLeast(x: int, m: int)
    requires x >= 1 && m > 0
    ensures x * m >= m
  {
  }
}

=== FILE: chat_icon_with_badge.dfy ===
/** The chat tab icon: the number of unread conversations and its badge. */
module ChatIconWithBadge {
  import opened Wrappers
  import opened Text
  import opened Conversations

  /** The count for the signed-in user, by one pass over the snapshot; 0 when nobody is signed in. */
  method UnreadCount(user: Option<string>, docs: seq<ConversationDoc>) returns (count: nat)
    ensures user.None? ==> count == 0
    ensures user.Some? ==> count == CountUnread(docs, user.value)
    ensures count <= |docs|
  {
    if user.None? {
      return 0;
    }
    var me := user.value;
    count := 0;
    var i := 0;
    while i < |docs|
      invariant 0 <= i <= |docs|
      invariant count == CountUnread(docs[..i], me)
    {
      assert docs[..i + 1][..i] == docs[..i];
      if HasUnread(docs[i], me) {
        count := count + 1;
      }
      i := i + 1;
    }
    assert docs[..i] == docs;
  }

  /** The badge text, or `None` when the badge is hidden. */
  function BadgeLabel(count: int): (r: Option<string>)
    ensures r.None? <==> count <= 0
    ensures r == Some("99+") <==> count > 99
    ensures 0 < count <= 99 ==> r == Some(IntToString(count))
    ensures 0 < count <= 99 ==> r.Some? && ParseNumber(r.value) == Some(count)
  {
    if count > 0 then
      ParseIntToString(count);
      assert IntToString(count) != "99+" by {
        assert IntToString(count)[0] != '-';
        if |IntToString(count)| == 3 {
          assert AllDigits(IntToString(count));
          assert IsDigit(IntToString(count)[2]);
        }
      }
      Some(if count > 99 then "99+" else IntToString(count))
    else None
  }
}

=== FILE: chat_messages_screen.dfy ===
/**
 * The full-screen conversation: the conversation id from the route's
 * counterpart and ad, the reset on opening, and sending, which has no
 * blank-text guard and keeps the local message whatever happens.
 */
module ChatMessagesScreen {
  import opened Wrappers
  import opened Conversations

  /** The route's counterpart uid and ad id. */
  datatype ChatUser = ChatUser(otherUid: string, adId: string)

  /** The conversation id this screen opens. */
  function ScreenChatId(me: string, cu: ChatUser): string {
    ChatId(me, cu.otherUid, cu.adId)
  }

  /** Both participants' screens open the same conversation. */
  lemma SameConversationBothWays(a: string, b: string, adId: string)
    ensures ScreenChatId(a, ChatUser(b, adId)) == ScreenChatId(b, ChatUser(a, adId))
  {
    ChatIdSymmetric(a, b, adId);
  }

  /** `checkAndResetUnread`. */
  function CheckAndResetUnread(srv: Server, me: string, cu: ChatUser): (r: Server)
    ensures var id := ScreenChatId(me, cu);
      && (id !in srv.docs || !NeedsReset(srv.docs[id], me) ==> r == srv)
      && (id in srv.docs && NeedsReset(srv.docs[id], me) ==> r.docs == srv.docs[id := srv.docs[id].(lastUnread := Bool(false))])
      && r.threads == srv.threads
  {
    ResetUnread(srv, ScreenChatId(me, cu), me)
  }

  /** Resetting twice is the same as resetting once. */
  lemma CheckAndResetIdempotent(srv: Server, me: string, cu: ChatUser)
    ensures CheckAndResetUnread(CheckAndResetUnread(srv, me, cu), me, cu) == CheckAndResetUnread(srv, me, cu)
  {
    ResetUnreadIdempotent(srv, ScreenChatId(me, cu), me);
  }

  /** What became of a send on the network. */
  datatype NetOutcome = NetOk | AddFails | UpdateFails

  datatype SendState = SendState(msgs: seq<Message>, text: string, srv: Server)

  /**
   * `handleSubmit`: the message is appended locally and the text cleared,
   * whatever the text and whatever the network does; the thread gets the
   * message unless adding fails, and the conversation document is updated
   * only after both writes succeed on an existing document.
   */
  function Submit(st: SendState, me: string, cu: ChatUser, now: int, net: NetOutcome): (r: SendState)
    ensures var id := ScreenChatId(me, cu);
      var m := Message(st.text, me, now, now);
      && r.msgs == st.msgs + [m]
      && r.text == ""
      && (net == AddFails ==> r.srv == st.srv)
      && (net != AddFails ==> r.srv.threads == AppendToThread(st.srv.threads, id, m))
      && (net == NetOk && id in st.srv.docs ==> r.srv.docs == st.srv.docs[id := RecordSend(st.srv.docs[id], me, st.text)])
      && (net != NetOk || id !in st.srv.docs ==> r.srv.docs == st.srv.docs)
  {
    var id := ScreenChatId(me, cu);
    var m := Message(st.text, me, now, now);
    var local := st.msgs + [m];
    if net == AddFails then SendState(local, "", st.srv)
    else
      var threads := AppendToThread(st.srv.threads, id, m);
      if net == UpdateFails || id !in st.srv.docs then SendState(local, "", st.srv.(threads := threads))
      else SendState(local, "", Server(st.srv.docs[id := RecordSend(st.srv.docs[id], me, st.text)], threads))
  }

  /** After the sender's own message is delivered, the sender's reset finds nothing to clear. */
  lemma ResetAfterOwnSendIsNoOp(st: SendState, me: string, cu: ChatUser, now: int)
    requires ScreenChatId(me, cu) in st.srv.docs
    ensures var r := Submit(st, me, cu, now, NetOk);
      CheckAndResetUnread(r.srv, me, cu) == r.srv
  {
  }

  /** A failed send still leaves the message on screen. */
  lemma FailedSendKeepsLocalMessage(st: SendState, me: string, cu: ChatUser, now: int, net: NetOutcome)
    requires net != NetOk
    ensures var r := Submit(st, me, cu, now, net);
      |r.msgs| == |st.msgs| + 1 && r.msgs[|st.msgs|] == Message(st.text, me, now, now)
  {
  }
}

=== FILE: chat_users_screen.dfy ===
/**
 * The conversation list: per conversation the unread status, one row per
 * conversation whose ad and counterpart both exist, rows ordered unread
 * first and then most recently updated first.
 */
module ChatUsersScreen {
  import opened Wrappers
  import opened Sequences
  import opened Conversations

  /** The ad document a row shows. */
  datatype ChatAd = ChatAd(adId: string, title: string, postedBy: string)

  /** A user profile document. */
  datatype Profile = Profile(uid: string, name: string)

  /** One row of the list. */
  datatype ChatItem = ChatItem(id: string, ad: ChatAd, other: Profile, hasUnread: bool, lastUpdated: int)

  /**
   * The row for one conversation, when the ad and the first participant
   * other than `me` both exist. A conversation without such a participant
   * gets no row here; `SnapshotAsWritten` shows what the screen does with
   * it instead.
   */
  function Row(d: ConversationDoc, me: string, ads: map<string, ChatAd>, profiles: map<string, Profile>): (r: Option<ChatItem>)
    ensures r.Some? <==> d.ad in ads && FindOther(d.users, me).Some? && FindOther(d.users, me).value in profiles
    ensures r.Some? ==> (r.value.id == d.id && r.value.ad == ads[d.ad]
      && r.value.other == profiles[FindOther(d.users, me).value]
      && r.value.hasUnread == HasUnread(d, me) && r.value.lastUpdated == d.lastUpdated)
  {
    var o := FindOther(d.users, me);
    if d.ad in ads && o.Some? && o.value in profiles then
      Some(ChatItem(d.id, ads[d.ad], profiles[o.value], HasUnread(d, me), d.lastUpdated))
    else None
  }

  /** The rows collected in snapshot order. */
  function Collect(docs: seq<ConversationDoc>, me: string, ads: map<string, ChatAd>, profiles: map<string, Profile>): (r: seq<ChatItem>)
    ensures |r| <= |docs|
    ensures forall it :: it in r ==> exists k :: 0 <= k < |docs| && Row(docs[k], me, ads, profiles) == Some(it)
    ensures forall k :: 0 <= k < |docs| && Row(docs[k], me, ads, profiles).Some? ==> Row(docs[k], me, ads, profiles).value in r
    decreases |docs|
  {
    if |docs| == 0 then []
    else
      var n := |docs| - 1;
      var front := Collect(docs[..n], me, ads, profiles);
      assert forall k :: 0 <= k < n ==> docs[..n][k] == docs[k];
      var row := Row(docs[n], me, ads, profiles);
      if row.Some? then front + [row.value] else front
  }

  /** `r` holds a key for exactly the ids of `docs`. */
  ghost predicate KeysAreIds(docs: seq<ConversationDoc>, r: map<string, bool>) {
    forall id :: id in r <==> exists k :: 0 <= k < |docs| && docs[k].id == id
  }

  /** The document at `k` is the last one of `docs` with its id. */
  ghost predicate LastWithId(docs: seq<ConversationDoc>, k: int) {
    0 <= k < |docs| && forall j :: k < j < |docs| ==> docs[j].id != docs[k].id
  }

  /** `r` holds, under each id, the status of the last document with that id. */
  ghost predicate LastStatusWins(docs: seq<ConversationDoc>, me: string, r: map<string, bool>) {
    forall k :: LastWithId(docs, k) ==> docs[k].id in r && r[docs[k].id] == HasUnread(docs[k], me)
  }

  /** The unread status by conversation id; a later document with the same id overwrites an earlier one. */
  function UnreadStatus(docs: seq<ConversationDoc>, me: string): (r: map<string, bool>)
    ensures forall id :: id in r <==> exists k :: 0 <= k < |docs| && docs[k].id == id
    ensures forall k :: (0 <= k < |docs| && (forall j :: k < j < |docs| ==> docs[j].id != docs[k].id)
      ==> docs[k].id in r && r[docs[k].id] == HasUnread(docs[k], me))
    decreases |docs|
  {
    if |docs| == 0 then map[]
    else
      var n := |docs| - 1;
      var front := UnreadStatus(docs[..n], me);
      var r := front[docs[n].id := HasUnread(docs[n], me)];
      assert KeysAreIds(docs, r) by {
        assert KeysAreIds(docs[..n], front);
        StatusKeysStep(docs, front, HasUnread(docs[n], me));
      }
      assert LastStatusWins(docs, me, r) by {
        assert LastStatusWins(docs[..n], me, front);
        StatusValuesStep(docs, me, front);
      }
      r
  }

  /** Adding the last document's id to the keys of the shorter list gives the keys of the whole list. */
  lemma StatusKeysStep(docs: seq<ConversationDoc>, front: map<string, bool>, v: bool)
    requires |docs| > 0 && KeysAreIds(docs[..|docs| - 1], front)
    ensures KeysAreIds(docs, front[docs[|docs| - 1].id := v])
  {
    var n := |docs| - 1;
    var r := front[docs[n].id := v];
    forall id ensures id in r <==> exists k :: 0 <= k < |docs| && docs[k].id == id {
      if id == docs[n].id {
        assert docs[n].id == id;
      } else if id in front {
        var k :| 0 <= k < n && docs[..n][k].id == id;
        assert docs[k].id == id;
      } else {
        forall k | 0 <= k < |docs| ensures docs[k].id != id {
          if k < n { assert docs[k] == docs[..n][k]; }
        }
      }
    }
  }

  /** Writing the last document's status over the shorter list's map keeps, for every id, the last status. */
  lemma StatusValuesStep(docs: seq<ConversationDoc>, me: string, front: map<string, bool>)
    requires |docs| > 0 && LastStatusWins(docs[..|docs| - 1], me, front)
    ensures LastStatusWins(docs, me, front[docs[|docs| - 1].id := HasUnread(docs[|docs| - 1], me)])
  {
    var n := |docs| - 1;
    var r := front[docs[n].id := HasUnread(docs[n], me)];
    forall k | LastWithId(docs, k)
      ensures docs[k].id in r && r[docs[k].id] == HasUnread(docs[k], me)
    {
      if k < n {
        assert docs[n].id != docs[k].id;
        assert docs[..n][k] == docs[k];
        assert LastWithId(docs[..n], k) by {
          forall j | k < j < n ensures docs[..n][j].id != docs[..n][k].id {
            assert docs[..n][j] == docs[j];
          }
        }
      }
    }
  }

  /** The list comparator as a preorder: `a` may go before `b`. */
  predicate UnreadFirst(a: ChatItem, b: ChatItem) {
    (a.hasUnread && !b.hasUnread) || (a.hasUnread == b.hasUnread && a.lastUpdated >= b.lastUpdated)
  }

  /** What the screen shows for a snapshot: the unread map and the ordered rows. */
  function ChatList(docs: seq<ConversationDoc>, me: string, ads: map<string, ChatAd>, profiles: map<string, Profile>): (r: (map<string, bool>, seq<ChatItem>))
    ensures r.0 == UnreadStatus(docs, me)
    ensures multiset(r.1) == multiset(Collect(docs, me, ads, profiles))
    ensures SortedBy(r.1, UnreadFirst)
  {
    assert TotalPreorder(UnreadFirst);
    (UnreadStatus(docs, me), SortBy(Collect(docs, me, ads, profiles), UnreadFirst))
  }

  /** In the ordered rows every unread row precedes every read one. */
  lemma UnreadRowsFirst(docs: seq<ConversationDoc>, me: string, ads: map<string, ChatAd>, profiles: map<string, Profile>)
    ensures var rows := ChatList(docs, me, ads, profiles).1;
      forall i, j :: 0 <= i < |rows| && 0 <= j < |rows| && rows[i].hasUnread && !rows[j].hasUnread ==> i < j
  {
  }

  /** Rows of the same status run from the most recently updated to the least. */
  lemma RecentFirstWithinStatus(docs: seq<ConversationDoc>, me: string, ads: map<string, ChatAd>, profiles: map<string, Profile>)
    ensures var rows := ChatList(docs, me, ads, profiles).1;
      forall i, j :: 0 <= i < j < |rows| && rows[i].hasUnread == rows[j].hasUnread ==> rows[i].lastUpdated >= rows[j].lastUpdated
  {
  }

  /** A row appears exactly for the conversations whose ad and counterpart exist. */
  lemma RowsNeedAdAndCounterpart(docs: seq<ConversationDoc>, me: string, ads: map<string, ChatAd>, profiles: map<string, Profile>, it: ChatItem)
    ensures it in ChatList(docs, me, ads, profiles).1 <==> exists k :: 0 <= k < |docs| && Row(docs[k], me, ads, profiles) == Some(it)
  {
    var rows := ChatList(docs, me, ads, profiles).1;
    assert it in rows <==> it in multiset(rows);
    var all := Collect(docs, me, ads, profiles);
    assert it in all <==> it in multiset(all);
  }

  /**
   * The snapshot handler as written. For a conversation without a
   * participant other than `me` (a self-chat), `find` gives `undefined` and
   * building the profile reference from it throws inside the callback. That
   * ends the callback before the rows and the unread map are set, so the
   * screen keeps what it showed: `None`. Otherwise the screen shows the
   * ordered rows and the unread map.
   */
  function SnapshotAsWritten(docs: seq<ConversationDoc>, me: string, ads: map<string, ChatAd>, profiles: map<string, Profile>)
    : (r: Option<(map<string, bool>, seq<ChatItem>)>)
    ensures r.None? <==> exists k :: 0 <= k < |docs| && FindOther(docs[k].users, me).None?
    ensures r.Some? ==> SortedBy(r.value.1, UnreadFirst) && r.value.0 == UnreadStatus(docs, me)
    ensures r.Some? ==> forall it :: it in r.value.1 <==> exists k :: 0 <= k < |docs| && Row(docs[k], me, ads, profiles) == Some(it)
  {
    if exists k :: 0 <= k < |docs| && FindOther(docs[k].users, me).None? then None
    else
      RowsOfChatList(docs, me, ads, profiles);
      Some(ChatList(docs, me, ads, profiles))
  }

  lemma RowsOfChatList(docs: seq<ConversationDoc>, me: string, ads: map<string, ChatAd>, profiles: map<string, Profile>)
    ensures forall it :: it in ChatList(docs, me, ads, profiles).1 <==> exists k :: 0 <= k < |docs| && Row(docs[k], me, ads, profiles) == Some(it)
  {
    forall it ensures it in ChatList(docs, me, ads, profiles).1 <==> exists k :: 0 <= k < |docs| && Row(docs[k], me, ads, profiles) == Some(it) {
      RowsNeedAdAndCounterpart(docs, me, ads, profiles, it);
    }
  }

  /**
   * One self-chat in the snapshot hides every other conversation: the
   * handler as written sets nothing, although the other conversation has
   * its ad and its counterpart and `ChatList` lists its row.
   */
  lemma SelfChatHidesList(d: ConversationDoc, self: ConversationDoc, me: string, ads: map<string, ChatAd>, profiles: map<string, Profile>)
    requires Row(d, me, ads, profiles).Some? && self.users == [me, me]
    ensures SnapshotAsWritten([d, self], me, ads, profiles).None?
    ensures Row(d, me, ads, profiles).value in ChatList([d, self], me, ads, profiles).1
  {
    assert FindOther([d, self][1].users, me).None?;
    RowsNeedAdAndCounterpart([d, self], me, ads, profiles, Row(d, me, ads, profiles).value);
    assert [d, self][0] == d;
  }

  /** The unread map covers every conversation, including those without a row. */
  lemma UnreadMapCoversAllDocs(docs: seq<ConversationDoc>, me: string, ads: map<string, ChatAd>, profiles: map<string, Profile>)
    ensures forall k :: 0 <= k < |docs| ==> docs[k].id in ChatList(docs, me, ads, profiles).0
  {
  }
}

=== FILE: chats.dfy ===
/**
 * The two-pane chat screen: the unread tally with per-conversation
 * counts, the reset on opening a conversation, sending with an
 * optimistic local append and rollback, and removal of a deleted
 * conversation from the list.
 */
module ChatsScreen {
  import opened Wrappers
  import opened Text
  import opened Sequences
  import opened Conversations

  /** The ad of a list entry or of the open chat. */
  datatype ChatAd = ChatAd(adId: string, postedBy: string)

  /** A user profile. */
  datatype Profile = Profile(uid: string, name: string)

  /** A list entry or the open chat: its ad and its counterpart, either possibly missing. */
  datatype Entry = Entry(ad: Option<ChatAd>, other: Option<Profile>)

  /** How many unread conversations of `docs` have key `key`. */
  function KeyCount(docs: seq<ConversationDoc>, me: string, key: string): (r: nat)
    ensures r <= CountUnread(docs, me)
    decreases |docs|
  {
    if |docs| == 0 then 0
    else
      var n := |docs| - 1;
      KeyCount(docs[..n], me, key) + (if HasUnread(docs[n], me) && ChatKey(docs[n].id, me) == key then 1 else 0)
  }

  /**
   * `getUnreadMessagesCount`: the total of unread conversations and, per
   * key read back from the conversation id, how many of them have it.
   */
  function Tally(docs: seq<ConversationDoc>, me: string): (r: (nat, map<string, nat>))
    ensures r.0 == CountUnread(docs, me)
    ensures forall key :: key in r.1 <==> KeyCount(docs, me, key) > 0
    ensures forall key :: key in r.1 ==> r.1[key] == KeyCount(docs, me, key)
    decreases |docs|
  {
    if |docs| == 0 then (0, map[])
    else
      var n := |docs| - 1;
      var prev := Tally(docs[..n], me);
      if HasUnread(docs[n], me) then
        var key := ChatKey(docs[n].id, me);
        TallyStep(docs, me, prev.1);
        (prev.0 + 1, Bump(prev.1, key))
      else
        TallySkip(docs, me);
        prev
  }

  /** One more conversation under `key`. */
  function Bump(counts: map<string, nat>, key: string): map<string, nat> {
    counts[key := (if key in counts then counts[key] else 0) + 1]
  }

  /** A last conversation that is not unread adds nothing under any key. */
  lemma TallySkip(docs: seq<ConversationDoc>, me: string)
    requires |docs| > 0 && !HasUnread(docs[|docs| - 1], me)
    ensures CountUnread(docs, me) == CountUnread(docs[..|docs| - 1], me)
    ensures forall key :: KeyCount(docs, me, key) == KeyCount(docs[..|docs| - 1], me, key)
  {
  }

  /** Adding the last conversation, when it is unread, raises the count under its key only. */
  lemma TallyStep(docs: seq<ConversationDoc>, me: string, counts: map<string, nat>)
    requires |docs| > 0 && HasUnread(docs[|docs| - 1], me)
    requires forall key :: key in counts <==> KeyCount(docs[..|docs| - 1], me, key) > 0
    requires forall key :: key in counts ==> counts[key] == KeyCount(docs[..|docs| - 1], me, key)
    ensures CountUnread(docs, me) == CountUnread(docs[..|docs| - 1], me) + 1
    ensures var r := Bump(counts, ChatKey(docs[|docs| - 1].id, me));
      && (forall key :: key in r <==> KeyCount(docs, me, key) > 0)
      && (forall key :: key in r ==> r[key] == KeyCount(docs, me, key))
  {
    var n := |docs| - 1;
    var last := ChatKey(docs[n].id, me);
    var r := Bump(counts, last);
    forall key
      ensures key in r <==> KeyCount(docs, me, key) > 0
      ensures key in r ==> r[key] == KeyCount(docs, me, key)
    {
      KeyCountLast(docs, me, key);
    }
  }

  /** The last conversation adds one under its own key when it is unread, and nothing otherwise. */
  lemma KeyCountLast(docs: seq<ConversationDoc>, me: string, key: string)
    requires |docs| > 0
    ensures var last := docs[|docs| - 1];
      KeyCount(docs, me, key) == KeyCount(docs[..|docs| - 1], me, key) + (if HasUnread(last, me) && ChatKey(last.id, me) == key then 1 else 0)
  {
  }

  /** `getUnreadCountForUser`: the count under the entry's key, 0 when a part is missing or the key is absent. */
  function UnreadCountFor(counts: map<string, nat>, e: Option<Entry>): (r: nat)
    ensures e.None? || e.value.ad.None? || e.value.other.None? ==> r == 0
    ensures e.Some? && e.value.ad.Some? && e.value.other.Some? ==>
      var key := e.value.other.value.uid + "-" + e.value.ad.value.adId;
      r == (if key in counts then counts[key] else 0)
  {
    if e.None? || e.value.ad.None? || e.value.other.None? then 0
    else
      var key := e.value.other.value.uid + "-" + e.value.ad.value.adId;
      if key in counts then counts[key] else 0
  }

  /** An unread conversation built for `me` and another user shows a count of at least one on that user's entry. */
  lemma UnreadConversationCounted(docs: seq<ConversationDoc>, me: string, k: int, other: Profile, ad: ChatAd)
    requires 0 <= k < |docs| && HasUnread(docs[k], me)
    requires docs[k].id == ChatId(me, other.uid, ad.adId)
    requires '.' !in me && '.' !in other.uid && '.' !in ad.adId && me != other.uid
    ensures UnreadCountFor(Tally(docs, me).1, Some(Entry(Some(ad), Some(other)))) >= 1
  {
    ChatKeyOfChatId(me, other.uid, ad.adId);
    KeyCountPositive(docs, me, k);
  }

  lemma {:induction false} KeyCountPositive(docs: seq<ConversationDoc>, me: string, k: int)
    requires 0 <= k < |docs| && HasUnread(docs[k], me)
    ensures KeyCount(docs, me, ChatKey(docs[k].id, me)) >= 1
    decreases |docs|
  {
    var n := |docs| - 1;
    KeyCountLast(docs, me, ChatKey(docs[k].id, me));
    if k < n {
      assert docs[..n][k] == docs[k];
      KeyCountPositive(docs[..n], me, k);
    }
  }

  /** Opening a list entry: nothing without an entry or its ad; otherwise the conversation with its counterpart is read. */
  function SelectUser(srv: Server, me: string, e: Option<Entry>): (r: Server)
    ensures e.None? || e.value.ad.None? || e.value.other.None? ==> r == srv
    ensures e.Some? && e.value.ad.Some? && e.value.other.Some? ==>
      r == ResetUnread(srv, ChatId(me, e.value.other.value.uid, e.value.ad.value.adId), me)
  {
    if e.None? || e.value.ad.None? || e.value.other.None? then srv
    else ResetUnread(srv, ChatId(me, e.value.other.value.uid, e.value.ad.value.adId), me)
  }

  /** Opening the chat about an ad from its page: nothing without an ad id; the counterpart is the ad's poster. */
  function GetChat(srv: Server, me: string, ad: Option<ChatAd>): (r: Server)
    ensures ad.None? || ad.value.adId == "" ==> r == srv
    ensures ad.Some? && ad.value.adId != "" ==> r == ResetUnread(srv, ChatId(me, ad.value.postedBy, ad.value.adId), me)
  {
    if ad.None? || ad.value.adId == "" then srv
    else ResetUnread(srv, ChatId(me, ad.value.postedBy, ad.value.adId), me)
  }

  /** Opening clears the flag exactly when the last message came from someone else and the flag is truthy. */
  lemma OpenClearsOnlyWhenNeeded(srv: Server, me: string, e: Entry)
    requires e.ad.Some? && e.other.Some?
    ensures var id := ChatId(me, e.other.value.uid, e.ad.value.adId);
      && (id in srv.docs && NeedsReset(srv.docs[id], me) ==> SelectUser(srv, me, Some(e)).docs[id].lastUnread == Bool(false))
      && (id !in srv.docs || !NeedsReset(srv.docs[id], me) ==> SelectUser(srv, me, Some(e)) == srv)
  {
  }

  /**
   * Opening the chat from the ad's page touches the same conversation as
   * opening the poster's entry in the list, and clears its flag only when
   * the last message came from someone else.
   */
  lemma GetChatMatchesSelectUser(srv: Server, me: string, e: Entry)
    requires e.ad.Some? && e.ad.value.adId != "" && e.other.Some? && e.other.value.uid == e.ad.value.postedBy
    ensures GetChat(srv, me, e.ad) == SelectUser(srv, me, Some(e))
    ensures var id := ChatId(me, e.ad.value.postedBy, e.ad.value.adId);
      && (id in srv.docs && NeedsReset(srv.docs[id], me) ==> GetChat(srv, me, e.ad).docs[id].lastUnread == Bool(false))
      && (id !in srv.docs || !NeedsReset(srv.docs[id], me) ==> GetChat(srv, me, e.ad) == srv)
  {
  }

  /** What became of a send on the network. */
  datatype NetOutcome = NetOk | AddFails | UpdateFails

  /** The local and server state a send touches. */
  datatype SendState = SendState(msgs: seq<Message>, text: string, srv: Server)

  predicate NotTemp(m: Message, tempId: int) {
    m.tempId != tempId
  }

  /** The rollback: every local message carrying the failed send's temporary id is removed. */
  function Rollback(msgs: seq<Message>, tempId: int): (r: seq<Message>)
    ensures Subsequence(r, msgs)
    ensures forall m :: m in r <==> m in msgs && m.tempId != tempId
    ensures forall m :: multiset(r)[m] == if m.tempId != tempId then multiset(msgs)[m] else 0
  {
    FilterCounts(msgs, m => NotTemp(m, tempId));
    Filter(msgs, m => NotTemp(m, tempId))
  }

  /** When no earlier local message has the temporary id, rolling back an append restores the list. */
  lemma RollbackUndoesAppend(msgs: seq<Message>, m: Message)
    requires forall k :: 0 <= k < |msgs| ==> msgs[k].tempId != m.tempId
    ensures Rollback(msgs + [m], m.tempId) == msgs
  {
    FilterAppend(msgs, [m], x => NotTemp(x, m.tempId));
    FilterAll(msgs, x => NotTemp(x, m.tempId));
  }

  /** A send goes ahead only with a chat, its ad, its counterpart and some non-blank text. */
  predicate CanSend(chat: Option<Entry>, text: string) {
    chat.Some? && chat.value.ad.Some? && chat.value.other.Some? && Trim(text) != ""
  }

  /** The conversation id of the open chat. */
  function OpenChatId(chat: Entry, me: string): string
    requires chat.ad.Some? && chat.other.Some?
  {
    ChatId(me, chat.other.value.uid, chat.ad.value.adId)
  }

  /**
   * `handleSubmit`: nothing without a chat, its ad or its counterpart, or
   * with blank text. Otherwise the message (sent now, with `now` as its
   * temporary id) is appended locally and the text is cleared; the message
   * is added to the thread unless that fails, then the conversation
   * document is updated unless that fails or the document is missing; on
   * either failure the local message is rolled back.
   */
  function Submit(st: SendState, chat: Option<Entry>, me: string, now: int, net: NetOutcome): (r: SendState)
    ensures !CanSend(chat, st.text) ==> r == st
    ensures CanSend(chat, st.text) ==> r.text == ""
    ensures CanSend(chat, st.text) && net.AddFails? ==> r.srv == st.srv
    ensures CanSend(chat, st.text) && !net.AddFails? ==>
      r.srv.threads == AppendToThread(st.srv.threads, OpenChatId(chat.value, me), Message(st.text, me, now, now))
    ensures CanSend(chat, st.text) && net.NetOk? && OpenChatId(chat.value, me) in st.srv.docs ==>
      var id := OpenChatId(chat.value, me);
      && r.msgs == st.msgs + [Message(st.text, me, now, now)]
      && r.srv.docs == st.srv.docs[id := RecordSend(st.srv.docs[id], me, st.text)]
    ensures CanSend(chat, st.text) && (!net.NetOk? || OpenChatId(chat.value, me) !in st.srv.docs) ==>
      && r.msgs == Rollback(st.msgs + [Message(st.text, me, now, now)], now)
      && r.srv.docs == st.srv.docs
  {
    if !CanSend(chat, st.text) then st
    else
      var id := OpenChatId(chat.value, me);
      var m := Message(st.text, me, now, now);
      var local := st.msgs + [m];
      match net
      case AddFails => SendState(Rollback(local, now), "", st.srv)
      case UpdateFails => SendState(Rollback(local, now), "", st.srv.(threads := AppendToThread(st.srv.threads, id, m)))
      case NetOk =>
        var threads := AppendToThread(st.srv.threads, id, m);
        if id in st.srv.docs then SendState(local, "", Server(st.srv.docs[id := RecordSend(st.srv.docs[id], me, st.text)], threads))
        else SendState(Rollback(local, now), "", st.srv.(threads := threads))
  }

  /** After a delivered send the conversation is unread for the counterpart and not for the sender. */
  lemma DeliveredIsUnreadForCounterpart(st: SendState, e: Entry, me: string, now: int)
    requires e.ad.Some? && e.other.Some? && Trim(st.text) != "" && e.other.value.uid != me
    requires ChatId(me, e.other.value.uid, e.ad.value.adId) in st.srv.docs
    ensures var id := ChatId(me, e.other.value.uid, e.ad.value.adId);
      var r := Submit(st, Some(e), me, now, NetOk);
      && HasUnread(r.srv.docs[id], e.other.value.uid)
      && !HasUnread(r.srv.docs[id], me)
      && r.srv.docs[id].lastText == st.text
  {
  }

  predicate KeepsEntry(u: Entry, adId: string) {
    !(u.ad.Some? && u.ad.value.adId == adId)
  }

  /** Removing a deleted conversation from the list: exactly the entries for the chat's ad go. */
  function RemoveConversation(users: seq<Entry>, chatAdId: string): (r: seq<Entry>)
    ensures Subsequence(r, users)
    ensures forall u :: u in r <==> u in users && !(u.ad.Some? && u.ad.value.adId == chatAdId)
    ensures forall u :: multiset(r)[u] == if u.ad.Some? && u.ad.value.adId == chatAdId then 0 else multiset(users)[u]
  {
    FilterCounts(users, u => KeepsEntry(u, chatAdId));
    Filter(users, u => KeepsEntry(u, chatAdId))
  }
}

=== FILE: conversations.dfy ===
/**
 * The `messages` collection shared by the chat screens: one conversation
 * document per pair of users and ad, the unread rule, the reset on
 * opening, and the canonical conversation id.
 */
module Conversations {
  import opened Wrappers
  import opened Text
  import opened Sequences

  /**
   * `lastUnread` as stored. The screens read it two ways: the unread rule
   * asks for the boolean `true` exactly, the reset on opening only for a
   * truthy value, so a non-boolean value is kept apart.
   */
  datatype Flag = Absent | Bool(b: bool) | Other(truthy: bool)

  predicate Truthy(f: Flag) {
    match f
    case Absent => false
    case Bool(b) => b
    case Other(t) => t
  }

  /** A conversation document; `ad` is the ad's id and `lastSender` may be missing. */
  datatype ConversationDoc = ConversationDoc(
    id: string,
    users: seq<string>,
    ad: string,
    lastText: string,
    lastSender: Option<string>,
    lastUnread: Flag,
    lastUpdated: int)

  /** A message of a conversation's `chat` sub-collection; `tempId` is the send time. */
  datatype Message = Message(text: string, sender: string, createdAt: int, tempId: int)

  /** The server side: conversation documents and their message threads, both by conversation id. */
  datatype Server = Server(docs: map<string, ConversationDoc>, threads: map<string, seq<Message>>)

  /** The unread rule: the last message is flagged `true` and was not sent by `me`. */
  predicate HasUnread(d: ConversationDoc, me: string) {
    d.lastUnread == Bool(true) && d.lastSender != Some(me)
  }

  /** A conversation whose last message `me` sent is never unread for `me`. */
  lemma OwnMessageNeverUnread(d: ConversationDoc, me: string)
    requires d.lastSender == Some(me)
    ensures !HasUnread(d, me)
  {
  }

  /** The number of conversations unread for `me`. */
  function CountUnread(docs: seq<ConversationDoc>, me: string): (r: nat)
    ensures r <= |docs|
    ensures r == 0 <==> forall k :: 0 <= k < |docs| ==> !HasUnread(docs[k], me)
    decreases |docs|
  {
    if |docs| == 0 then 0
    else
      var n := |docs| - 1;
      assert forall k :: 0 <= k < n ==> docs[..n][k] == docs[k];
      CountUnread(docs[..n], me) + (if HasUnread(docs[n], me) then 1 else 0)
  }

  /** The count is the length of the list of unread conversations. */
  lemma {:induction false} CountUnreadIsFilterLength(docs: seq<ConversationDoc>, me: string)
    ensures CountUnread(docs, me) == |Filter(docs, d => HasUnread(d, me))|
    decreases |docs|
  {
    if |docs| > 0 {
      var n := |docs| - 1;
      CountUnreadIsFilterLength(docs[..n], me);
      assert docs == docs[..n] + [docs[n]];
      FilterAppend(docs[..n], [docs[n]], d => HasUnread(d, me));
    }
  }

  /** The condition under which opening a conversation clears its flag. */
  predicate NeedsReset(d: ConversationDoc, me: string) {
    d.lastSender != Some(me) && Truthy(d.lastUnread)
  }

  /** Every conversation counted as unread is one that opening clears. */
  lemma UnreadIsReset(d: ConversationDoc, me: string)
    ensures HasUnread(d, me) ==> NeedsReset(d, me)
  {
  }

  /** The flag write `{ lastUnread: false }`, done only when the condition holds. */
  function MarkRead(d: ConversationDoc, me: string): (r: ConversationDoc)
    ensures !HasUnread(r, me) && !NeedsReset(r, me)
    ensures r.(lastUnread := d.lastUnread) == d
    ensures NeedsReset(d, me) ==> r.lastUnread == Bool(false)
    ensures !NeedsReset(d, me) ==> r == d
  {
    if NeedsReset(d, me) then d.(lastUnread := Bool(false)) else d
  }

  /** Reading a conversation on open: nothing happens to a missing document or one that needs no reset. */
  function ResetUnread(srv: Server, chatId: string, me: string): (r: Server)
    ensures r.threads == srv.threads
    ensures chatId !in srv.docs || !NeedsReset(srv.docs[chatId], me) ==> r == srv
    ensures chatId in srv.docs ==> r.docs == srv.docs[chatId := MarkRead(srv.docs[chatId], me)]
    ensures chatId in r.docs ==> !HasUnread(r.docs[chatId], me)
    ensures forall id :: id in srv.docs && id != chatId ==> id in r.docs && r.docs[id] == srv.docs[id]
  {
    if chatId in srv.docs && NeedsReset(srv.docs[chatId], me) then
      srv.(docs := srv.docs[chatId := MarkRead(srv.docs[chatId], me)])
    else
      assert chatId in srv.docs ==> srv.docs[chatId := MarkRead(srv.docs[chatId], me)] == srv.docs;
      srv
  }

  /** A second reset finds nothing to clear. */
  lemma ResetUnreadIdempotent(srv: Server, chatId: string, me: string)
    ensures ResetUnread(ResetUnread(srv, chatId, me), chatId, me) == ResetUnread(srv, chatId, me)
  {
  }

  /** The update after a successful send: the text, the sender and the `true` flag. */
  function RecordSend(d: ConversationDoc, me: string, text: string): (r: ConversationDoc)
    ensures r.lastSender == Some(me) && r.lastUnread == Bool(true) && r.lastText == text
    ensures !HasUnread(r, me)
    ensures forall u :: u != me ==> HasUnread(r, u)
    ensures r.(lastText := d.lastText, lastSender := d.lastSender, lastUnread := d.lastUnread) == d
  {
    d.(lastText := text, lastSender := Some(me), lastUnread := Bool(true))
  }

  /** `addDoc` on a conversation's `chat` sub-collection; the thread is created if needed. */
  function AppendToThread(threads: map<string, seq<Message>>, chatId: string, m: Message): (r: map<string, seq<Message>>)
    ensures chatId in r && |r[chatId]| >= 1 && r[chatId][|r[chatId]| - 1] == m
    ensures chatId in threads ==> r[chatId][..|r[chatId]| - 1] == threads[chatId]
    ensures chatId !in threads ==> r[chatId] == [m]
    ensures forall id :: id != chatId ==> (id in r <==> id in threads) && (id in threads ==> r[id] == threads[id])
  {
    threads[chatId := (if chatId in threads then threads[chatId] else []) + [m]]
  }

  /** `user1 > user2` on strings. */
  predicate Greater(a: string, b: string) {
    LexLess(b, a)
  }

  /** The conversation id: the larger user id, the smaller one, then the ad id, joined by dots. */
  function ChatId(u1: string, u2: string, adId: string): string {
    if Greater(u1, u2) then u1 + "." + u2 + "." + adId else u2 + "." + u1 + "." + adId
  }

  /** Both participants compute the same conversation id. */
  lemma ChatIdSymmetric(u1: string, u2: string, adId: string)
    ensures ChatId(u1, u2, adId) == ChatId(u2, u1, adId)
  {
    if u1 != u2 {
      LexLessTotal(u1, u2);
      LexLessAsymmetric(u1, u2);
    }
  }

  /** `find((id) => id !== me)`. */
  function FindOther(ids: seq<string>, me: string): (r: Option<string>)
    ensures r.None? <==> forall k :: 0 <= k < |ids| ==> ids[k] == me
    ensures r.Some? ==> r.value != me && exists k :: (0 <= k < |ids| && ids[k] == r.value
      && forall j :: 0 <= j < k ==> ids[j] == me)
  {
    if |ids| == 0 then None
    else if ids[0] != me then Some(ids[0])
    else
      var r := FindOther(ids[1..], me);
      assert forall k :: 1 <= k < |ids| ==> ids[k] == ids[1..][k - 1];
      if r.Some? then
        var k :| 0 <= k < |ids[1..]| && ids[1..][k] == r.value && forall j :: 0 <= j < k ==> ids[1..][j] == me;
        assert ids[k + 1] == r.value;
        r
      else r
  }

  /** A value placed in a template string; a missing one reads "undefined". */
  function Render(v: Option<string>): string {
    if v.Some? then v.value else "undefined"
  }

  /** The per-chat key read back from a conversation id: the other user's id, '-', the ad id. */
  function ChatKey(chatId: string, me: string): string {
    var parts := Split(chatId, '.');
    Render(FindOther(parts, me)) + "-" + Render(if |parts| > 2 then Some(parts[2]) else None)
  }

  /** For distinct, dot-free ids, reading the key back recovers the id builder's inputs. */
  lemma ChatKeyOfChatId(me: string, other: string, adId: string)
    requires '.' !in me && '.' !in other && '.' !in adId
    requires me != other
    ensures ChatKey(ChatId(me, other, adId), me) == other + "-" + adId
  {
    var parts := if Greater(me, other) then [me, other, adId] else [other, me, adId];
    SplitJoin(parts, '.');
    assert Join(parts, '.') == parts[0] + "." + parts[1] + "." + parts[2] by {
      assert parts[1..][1..] == [adId];
      assert Join([adId], '.') == adId;
      assert Join(parts[1..], '.') == parts[1] + "." + adId;
      assert Join(parts, '.') == parts[0] + "." + Join(parts[1..], '.');
    }
    assert Split(ChatId(me, other, adId), '.') == parts;
    if Greater(me, other) {
      assert FindOther(parts, me) == FindOther(parts[1..], me);
      assert parts[1..][0] == other;
    }
  }
}

=== FILE: detailed_ad_screen.dfy ===
/**
 * The bidding rules of the ad details screen: the minimum bid shown in the
 * bid modal, the ordered bid validator, the writes an accepted bid makes,
 * the suggestion for the next bid, the seller check on opening the bid
 * modal and the remaining-time label. The default increment here is 50.
 */
module DetailedAdScreen {
  import opened Wrappers
  import opened Text
  import opened Auctions

  const DefaultIncrement: int := 50

  /** `getMinBid`: 0 unless the ad is an auction with an auction record. */
  function GetMinBid(ad: AdDoc): int {
    if !ad.isAuction || ad.auction.None? then 0 else MinBid(ad.auction.value, DefaultIncrement)
  }

  predicate HasEnded(a: Auction, now: int) {
    a.endTime.Some? && a.endTime.value <= now
  }

  /**
   * `validateBid`: the checks run in a fixed order and the first that fails
   * names the refusal; a bid passing every check is accepted as its parsed value.
   */
  function ValidateBid(ad: AdDoc, uid: string, amountText: string, now: int): (r: Result<int, BidError>)
    ensures r == Err(NotAnAuction) <==> ad.auction.None?
    ensures r == Err(InvalidNumber) <==> ad.auction.Some? && ParseNumber(amountText).None?
    ensures r.Err? && r.error.BidTooLow? <==>
      ad.auction.Some? && ParseNumber(amountText).Some? && ParseNumber(amountText).value < MinBid(ad.auction.value, DefaultIncrement)
    ensures r.Err? && r.error.BidTooLow? ==> r.error.minBid == MinBid(ad.auction.value, DefaultIncrement)
    ensures r == Err(AuctionClosed) <==>
      ad.auction.Some? && ParseNumber(amountText).Some? && ParseNumber(amountText).value >= MinBid(ad.auction.value, DefaultIncrement)
      && ad.auction.value.status != "active"
    ensures r == Err(AuctionEnded) <==>
      ad.auction.Some? && ParseNumber(amountText).Some? && ParseNumber(amountText).value >= MinBid(ad.auction.value, DefaultIncrement)
      && ad.auction.value.status == "active" && HasEnded(ad.auction.value, now)
    ensures r == Err(AlreadyHighestBidder) <==>
      ad.auction.Some? && ParseNumber(amountText).Some? && ParseNumber(amountText).value >= MinBid(ad.auction.value, DefaultIncrement)
      && ad.auction.value.status == "active" && !HasEnded(ad.auction.value, now) && ad.auction.value.currentBidderId == Some(uid)
    ensures r.Ok? <==>
      ad.auction.Some? && ParseNumber(amountText).Some? && ParseNumber(amountText).value >= MinBid(ad.auction.value, DefaultIncrement)
      && ad.auction.value.status == "active" && !HasEnded(ad.auction.value, now) && ad.auction.value.currentBidderId != Some(uid)
    ensures r.Ok? ==> ParseNumber(amountText) == Some(r.value)
    ensures r.Err? ==> r.error !in {InvalidMaxBid, SellerCannotBid}
  {
    if ad.auction.None? then Err(NotAnAuction)
    else
      var a := ad.auction.value;
      var minBid := MinBid(a, DefaultIncrement);
      match ParseNumber(amountText)
      case None => Err(InvalidNumber)
      case Some(v) =>
        if v < minBid then Err(BidTooLow(minBid))
        else if a.status != "active" then Err(AuctionClosed)
        else if HasEnded(a, now) then Err(AuctionEnded)
        else if a.currentBidderId == Some(uid) then Err(AlreadyHighestBidder)
        else Ok(v)
  }

  /** What an accepted bid leaves behind: the ad document, the `bids` record and the next suggested amount. */
  datatype Placed = Placed(ad: AdDoc, record: BidRecord, nextBid: int)

  /**
   * `handlePlaceBid` after validation, its writes taken as one step: the bid
   * record is added, the auction takes the bid, one bidder entry is appended,
   * `bidCount` goes up by one, `lastBidTime` is stamped, and a bid inside the
   * last five minutes extends the auction. A refused bid changes nothing.
   */
  function PlaceBid(ad: AdDoc, user: BidUser, amountText: string, now: int): (r: Result<Placed, BidError>)
    ensures r.Ok? <==> ValidateBid(ad, user.uid, amountText, now).Ok?
    ensures r.Err? ==> r.error == ValidateBid(ad, user.uid, amountText, now).error
    ensures r.Ok? ==>
      var before, after := ad.auction.value, r.value.ad.auction;
      var bid := ValidateBid(ad, user.uid, amountText, now).value;
      && after.Some?
      && after.value.currentBid == bid
      && after.value.currentBidderId == Some(user.uid)
      && after.value.bidders == before.bidders + [Bidder(user.uid, BidderName(user), bid, now, None)]
      && r.value.ad.bidCount == ad.bidCount + 1
      && r.value.ad.lastBidTime == Some(now)
      && r.value.ad.(auction := ad.auction, bidCount := ad.bidCount, lastBidTime := ad.lastBidTime) == ad
      && after.value.(currentBid := before.currentBid, currentBidderId := before.currentBidderId,
                      bidders := before.bidders, endTime := before.endTime, extended := before.extended) == before
      && (InLastMinutes(before, now) ==> after.value.endTime == Some(now + ExtensionWindow) && after.value.extended)
      && (!InLastMinutes(before, now) ==> after.value.endTime == before.endTime && after.value.extended == before.extended)
      && r.value.record == BidRecord(ad.adId, user.uid, BidderName(user), bid, None, None, now)
  {
    match ValidateBid(ad, user.uid, amountText, now)
    case Err(e) => Err(e)
    case Ok(bid) =>
      var a := ad.auction.value;
      var name := BidderName(user);
      var recorded := RecordBid(ad, a, Bidder(user.uid, name, bid, now, None));
      var extended := AntiSnipe(recorded.auction.value, now);
      var stored := recorded.(auction := Some(extended), lastBidTime := Some(now));
      Ok(Placed(stored, BidRecord(ad.adId, user.uid, name, bid, None, None, now), bid + OrDefault(a.bidIncrement, DefaultIncrement)))
  }

  /**
   * The screen's own copy of the ad after a bid: only the current bid, the
   * current bidder and the bid count are refreshed; the bidder list and the
   * end time keep their loaded values.
   */
  function LocalAfterBid(ad: AdDoc, uid: string, bid: int): (r: AdDoc)
    requires ad.auction.Some?
    ensures r.auction.Some?
    ensures r.auction.value.(currentBid := ad.auction.value.currentBid, currentBidderId := ad.auction.value.currentBidderId) == ad.auction.value
    ensures r.auction.value.currentBid == bid && r.auction.value.currentBidderId == Some(uid)
    ensures r.(auction := ad.auction, bidCount := ad.bidCount) == ad && r.bidCount == ad.bidCount + 1
  {
    ad.(auction := Some(ad.auction.value.(currentBid := bid, currentBidderId := Some(uid))), bidCount := ad.bidCount + 1)
  }

  /** With a non-negative increment, an accepted bid beats both the previous bid and the starting price. */
  lemma AcceptedBidRaises(ad: AdDoc, user: BidUser, amountText: string, now: int)
    requires ad.auction.Some? && ad.auction.value.bidIncrement >= 0
    requires PlaceBid(ad, user, amountText, now).Ok?
    ensures var after := PlaceBid(ad, user, amountText, now).value.ad.auction.value;
      after.currentBid > ad.auction.value.currentBid && after.currentBid > ad.auction.value.startingPrice
  {
  }

  /**
   * The amount suggested after a successful bid is the minimum the modal
   * then asks for, on the stored document and on the screen's copy alike,
   * when the increment is not negative.
   */
  lemma NextSuggestionIsMinBid(ad: AdDoc, user: BidUser, amountText: string, now: int)
    requires ad.isAuction && ad.auction.Some? && ad.auction.value.bidIncrement >= 0
    requires PlaceBid(ad, user, amountText, now).Ok?
    ensures var placed := PlaceBid(ad, user, amountText, now).value;
      && placed.nextBid == GetMinBid(placed.ad)
      && placed.nextBid == GetMinBid(LocalAfterBid(ad, user.uid, placed.ad.auction.value.currentBid))
  {
  }

  /** A bid under the minimum is refused as too low whatever the auction's status, end or current bidder. */
  lemma TooLowWinsOverLaterChecks(ad: AdDoc, uid: string, amount: int, now: int)
    requires ad.auction.Some? && amount < MinBid(ad.auction.value, DefaultIncrement)
    ensures ValidateBid(ad, uid, IntToString(amount), now) == Err(BidTooLow(MinBid(ad.auction.value, DefaultIncrement)))
  {
    ParseIntToString(amount);
  }

  /** `openBidModal`: the seller of the ad may not open the bid modal. */
  function OpenBidModal(uid: string, ad: AdDoc): (r: Result<(), BidError>)
    ensures r.Err? <==> uid == ad.postedBy
    ensures r.Err? ==> r.error == SellerCannotBid
  {
    if uid == ad.postedBy then Err(SellerCannotBid) else Ok(())
  }

  /**
   * `getTimeRemaining`: no label without an auction end; "Auction Ended"
   * once the end has passed; otherwise days and hours, hours and minutes,
   * or minutes, whichever is the largest unit present.
   */
  function TimeRemaining(ad: AdDoc, now: int): (r: Option<string>)
    ensures r.None? <==> !ad.isAuction || ad.auction.None? || ad.auction.value.endTime.None?
    ensures r == Some("Auction Ended") <==>
      ad.isAuction && ad.auction.Some? && ad.auction.value.endTime.Some? && ad.auction.value.endTime.value <= now
    ensures EndsLater(ad, now) ==> r.Some?
    ensures EndsLater(ad, now) ==> var d := Decompose(Left(ad, now));
      ParseNumber(r.value) == Some(if d.days > 0 then d.days else if d.hours > 0 then d.hours else d.minutes)
    ensures EndsLater(ad, now) ==> ('d' in r.value <==> Decompose(Left(ad, now)).days > 0)
    ensures EndsLater(ad, now) ==> ('h' in r.value <==> Decompose(Left(ad, now)).days > 0 || Decompose(Left(ad, now)).hours > 0)
    ensures EndsLater(ad, now) && Decompose(Left(ad, now)).days > 0 ==> var d := Decompose(Left(ad, now));
      r.value == NatToString(d.days) + (" days, " + (NatToString(d.hours) + " hours"))
    ensures EndsLater(ad, now) && Decompose(Left(ad, now)).days == 0 && Decompose(Left(ad, now)).hours > 0 ==>
      var d := Decompose(Left(ad, now));
      r.value == NatToString(d.hours) + (" hours, " + (NatToString(d.minutes) + " minutes"))
    ensures EndsLater(ad, now) && Decompose(Left(ad, now)).days == 0 && Decompose(Left(ad, now)).hours == 0 ==>
      r.value == NatToString(Decompose(Left(ad, now)).minutes) + " minutes"
  {
    if !ad.isAuction || ad.auction.None? || ad.auction.value.endTime.None? then None
    else if !EndsLater(ad, now) then Some("Auction Ended")
    else Some(LongLabel(Decompose(Left(ad, now))))
  }

  /** The ad is an auction whose end is still ahead. */
  predicate EndsLater(ad: AdDoc, now: int) {
    ad.isAuction && ad.auction.Some? && ad.auction.value.endTime.Some? && ad.auction.value.endTime.value > now
  }

  /** The milliseconds left before an end that is still ahead. */
  function Left(ad: AdDoc, now: int): (t: int)
    requires EndsLater(ad, now)
    ensures t > 0
  {
    ad.auction.value.endTime.value - now
  }

  /**
   * The long label: the largest unit present and the next one down (only
   * the minutes when neither days nor hours are present). It reads back as
   * its largest unit and names exactly the units shown.
   */
  function LongLabel(d: Duration): (shown: string)
    ensures shown != "Auction Ended"
    ensures ParseNumber(shown) == Some(if d.days > 0 then d.days else if d.hours > 0 then d.hours else d.minutes)
    ensures 'd' in shown <==> d.days > 0
    ensures 'h' in shown <==> d.days > 0 || d.hours > 0
    ensures d.days > 0 ==> shown == NatToString(d.days) + (" days, " + (NatToString(d.hours) + " hours"))
    ensures d.days == 0 && d.hours > 0 ==> shown == NatToString(d.hours) + (" hours, " + (NatToString(d.minutes) + " minutes"))
    ensures d.days == 0 && d.hours == 0 ==> shown == NatToString(d.minutes) + " minutes"
  {
    if d.days > 0 then DaysLabel(d.days, d.hours)
    else if d.hours > 0 then HoursLabel(d.hours, d.minutes)
    else MinutesLabel(d.minutes)
  }

  /** "N days, H hours". */
  function DaysLabel(days: nat, hours: nat): (shown: string)
    ensures shown != "Auction Ended" && ParseNumber(shown) == Some(days) && 'd' in shown && 'h' in shown
    ensures shown == NatToString(days) + (" days, " + (NatToString(hours) + " hours"))
  {
    UnitWords();
    var rest := " days, " + (NatToString(hours) + " hours");
    assert rest[1] == 'd';
    assert rest[7 + |NatToString(hours)| + 1] == 'h';
    NumeralThen(days, rest);
    NatToString(days) + rest
  }

  /** "H hours, M minutes". */
  function HoursLabel(hours: nat, minutes: nat): (shown: string)
    ensures shown != "Auction Ended" && ParseNumber(shown) == Some(hours) && 'd' !in shown && 'h' in shown
    ensures shown == NatToString(hours) + (" hours, " + (NatToString(minutes) + " minutes"))
  {
    UnitWords();
    NoUnitLetters(minutes);
    NoUnitLetters(hours);
    var rest := " hours, " + (NatToString(minutes) + " minutes");
    assert rest[1] == 'h';
    NumeralThen(hours, rest);
    NatToString(hours) + rest
  }

  /** "M minutes". */
  function MinutesLabel(minutes: nat): (shown: string)
    ensures shown != "Auction Ended" && ParseNumber(shown) == Some(minutes) && 'd' !in shown && 'h' !in shown
    ensures shown == NatToString(minutes) + " minutes"
  {
    UnitWords();
    NoUnitLetters(minutes);
    NumeralThen(minutes, " minutes");
    NatToString(minutes) + " minutes"
  }

  lemma UnitWords()
    ensures 'd' !in " minutes" && 'h' !in " minutes" && 'd' !in " hours, "
  {
  }

  lemma NoUnitLetters(n: nat)
    ensures 'd' !in NatToString(n) && 'h' !in NatToString(n)
  {
    var s := NatToString(n);
    assert forall k :: 0 <= k < |s| ==> IsDigit(s[k]);
  }

  // ---- the initial suggestion ----

  /**
   * The amount the bid field is first filled with, as written: one taka over
   * the higher of current bid and starting price, although the increment is
   * computed on the line before.
   */
  function InitialSuggestionAsWritten(ad: AdDoc): (r: Option<int>)
    ensures r.Some? <==> ad.isAuction && ad.auction.Some?
    ensures r.Some? ==> r.value == MinBid(ad.auction.value, DefaultIncrement) - OrDefault(ad.auction.value.bidIncrement, DefaultIncrement) + 1
  {
    if ad.isAuction && ad.auction.Some? then
      Some(Max(ad.auction.value.currentBid, ad.auction.value.startingPrice) + 1)
    else None
  }

  /** A fresh auction with the default increment: the written suggestion 101 is refused as too low. */
  lemma InitialSuggestionRejected()
    ensures var ad := AdDoc("ad1", "seller", true, Some(Auction(100, 0, None, 0, Some(3600000), "active", [], false)), 0, None);
      && InitialSuggestionAsWritten(ad) == Some(101)
      && ValidateBid(ad, "buyer", IntToString(101), 0) == Err(BidTooLow(150))
  {
    var ad := AdDoc("ad1", "seller", true, Some(Auction(100, 0, None, 0, Some(3600000), "active", [], false)), 0, None);
    assert MinBid(ad.auction.value, DefaultIncrement) == 150;
    ParseIntToString(101);
  }

  /** The evidently intended suggestion: the minimum bid itself. */
  function InitialSuggestion(ad: AdDoc): (r: Option<int>)
    ensures r.Some? <==> ad.isAuction && ad.auction.Some?
    ensures r.Some? ==> r.value == GetMinBid(ad)
  {
    if ad.isAuction && ad.auction.Some? then Some(GetMinBid(ad)) else None
  }

  /** The intended suggestion never trips the too-low check. */
  lemma InitialSuggestionPassesMinimum(ad: AdDoc, uid: string, now: int)
    requires InitialSuggestion(ad).Some?
    ensures var r := ValidateBid(ad, uid, IntToString(InitialSuggestion(ad).value), now);
      r.Ok? || r.error in {AuctionClosed, AuctionEnded, AlreadyHighestBidder}
  {
    ParseIntToString(InitialSuggestion(ad).value);
  }

  // ---- scenarios ----

  lemma ParseLiteral(n: nat, s: string)
    requires s == IntToString(n)
    ensures ParseNumber(s) == Some(n)
  {
    ParseIntToString(n);
  }

  /**
   * Starting price 100, no bid yet, increment 50: first bids of 100 and 120
   * are refused, because the minimum is 150; a bid of 150 is accepted and
   * leaves one bidder entry.
   */
  lemma FirstBidScenario()
    ensures var ad := AdDoc("ad1", "seller", true, Some(Auction(100, 0, None, 50, Some(3600000), "active", [], false)), 0, None);
      var buyer := BidUser("buyer", "Buyer", "");
      && PlaceBid(ad, buyer, "100", 0) == Err(BidTooLow(150))
      && PlaceBid(ad, buyer, "120", 0) == Err(BidTooLow(150))
      && PlaceBid(ad, buyer, "150", 0).Ok?
      && PlaceBid(ad, buyer, "150", 0).value.ad.auction.value.currentBid == 150
      && |PlaceBid(ad, buyer, "150", 0).value.ad.auction.value.bidders| == 1
  {
    var ad := AdDoc("ad1", "seller", true, Some(Auction(100, 0, None, 50, Some(3600000), "active", [], false)), 0, None);
    assert MinBid(ad.auction.value, DefaultIncrement) == 150;
    assert IntToString(100) == "100" && IntToString(120) == "120" && IntToString(150) == "150";
    ParseLiteral(100, "100");
    ParseLiteral(120, "120");
    ParseLiteral(150, "150");
  }

  /** A valid bid three minutes before the end moves the end to five minutes after the bid. */
  lemma LateBidScenario(now: int)
    ensures var ad := AdDoc("ad1", "seller", true, Some(Auction(100, 0, None, 50, Some(now + 180000), "active", [], false)), 0, None);
      var placed := PlaceBid(ad, BidUser("buyer", "", ""), "150", now);
      && placed.Ok?
      && placed.value.ad.auction.value.endTime == Some(now + 300000)
      && placed.value.ad.auction.value.extended
  {
    var ad := AdDoc("ad1", "seller", true, Some(Auction(100, 0, None, 50, Some(now + 180000), "active", [], false)), 0, None);
    assert IntToString(150) == "150";
    ParseLiteral(150, "150");
    assert InLastMinutes(ad.auction.value, now);
  }
}

=== FILE: home.dfy ===
/**
 * The browse screen's client-side pipeline over a fetched page of ads:
 * the price read from one of several legacy field names, the price's
 * numeric value, the title search, the free-only filter, the two price
 * sorts, and the merge of a further page on scrolling.
 */
module HomeScreen {
  import opened Wrappers
  import opened Text
  import opened Sequences

  const AdsPerPage: int := 10

  /** The fields tried for a price, in order. */
  const PriceFieldNames: seq<string> := ["price", "Price", "amount", "cost", "value", "pricing"]

  /** A price field as stored: missing (`undefined` or `null`), a number or a string. */
  datatype PriceValue = Absent | Num(n: int) | Str(s: string)

  /**
   * An ad of the feed. `currentBid` and `startingBid` are the top-level
   * fields this screen reads for auctions (0 when missing); `fields` holds
   * whatever price fields the document has.
   */
  datatype Listing = Listing(
    id: string,
    title: string,
    isAuction: bool,
    currentBid: int,
    startingBid: int,
    fields: map<string, PriceValue>)

  function Field(ad: Listing, name: string): PriceValue {
    if name in ad.fields then ad.fields[name] else Absent
  }

  /** The first of `names` whose field is present. */
  function FirstPresent(ad: Listing, names: seq<string>): (r: PriceValue)
    ensures r == Absent <==> forall k :: 0 <= k < |names| ==> Field(ad, names[k]) == Absent
    ensures r != Absent ==> exists k :: (0 <= k < |names| && r == Field(ad, names[k])
      && forall j :: 0 <= j < k ==> Field(ad, names[j]) == Absent)
  {
    if |names| == 0 then Absent
    else if Field(ad, names[0]) != Absent then Field(ad, names[0])
    else
      var r := FirstPresent(ad, names[1..]);
      FirstPresentShift(ad, names, r);
      r
  }

  /** The witness for the tail of `names` shifted by one for `names`. */
  lemma FirstPresentShift(ad: Listing, names: seq<string>, r: PriceValue)
    requires |names| > 0 && Field(ad, names[0]) == Absent
    requires r == Absent <==> forall k :: 0 <= k < |names[1..]| ==> Field(ad, names[1..][k]) == Absent
    requires r != Absent ==> exists k :: (0 <= k < |names[1..]| && r == Field(ad, names[1..][k])
      && forall j :: 0 <= j < k ==> Field(ad, names[1..][j]) == Absent)
    ensures r == Absent <==> forall k :: 0 <= k < |names| ==> Field(ad, names[k]) == Absent
    ensures r != Absent ==> exists k :: (0 <= k < |names| && r == Field(ad, names[k])
      && forall j :: 0 <= j < k ==> Field(ad, names[j]) == Absent)
  {
    assert forall k :: 1 <= k < |names| ==> names[k] == names[1..][k - 1];
    if r != Absent {
      var k :| 0 <= k < |names[1..]| && r == Field(ad, names[1..][k])
        && forall j :: 0 <= j < k ==> Field(ad, names[1..][j]) == Absent;
      assert r == Field(ad, names[k + 1]);
      assert forall j :: 0 <= j < k + 1 ==> Field(ad, names[j]) == Absent by {
        forall j | 0 < j < k + 1 ensures Field(ad, names[j]) == Absent {
          assert names[j] == names[1..][j - 1];
        }
      }
    }
  }

  /** `ad.currentBid || ad.startingBid || 0`. */
  function AuctionPrice(ad: Listing): int {
    if ad.currentBid != 0 then ad.currentBid else ad.startingBid
  }

  /** `getPriceFromAd`: the auction price, else the first present price field, else "free". */
  function GetPriceFromAd(ad: Listing): (r: PriceValue)
    ensures r != Absent
    ensures ad.isAuction ==> r == Num(AuctionPrice(ad))
    ensures !ad.isAuction && (forall k :: 0 <= k < |PriceFieldNames| ==> Field(ad, PriceFieldNames[k]) == Absent) ==> r == Str("free")
    ensures !ad.isAuction && r != Str("free") ==> exists k :: (0 <= k < |PriceFieldNames| && r == Field(ad, PriceFieldNames[k])
      && forall j :: 0 <= j < k ==> Field(ad, PriceFieldNames[j]) == Absent)
  {
    if ad.isAuction then Num(AuctionPrice(ad))
    else
      var p := FirstPresent(ad, PriceFieldNames);
      if p == Absent then Str("free") else p
  }

  /** JavaScript's `!v` on a price value. */
  predicate Falsy(v: PriceValue) {
    v == Absent || v == Num(0) || v == Str("")
  }

  /** `String(v)`. */
  function ToJsString(v: PriceValue): string {
    match v
    case Absent => "undefined"
    case Num(n) => IntToString(n)
    case Str(s) => s
  }

  /** `String(price).toLowerCase().trim()`. */
  function Normalized(v: PriceValue): string {
    Trim(Lower(ToJsString(v)))
  }

  /**
   * `priceToNumber`: the auction price for auctions; 0 for a missing or
   * "free" price; otherwise the number read after removing every character
   * other than digits, '.' and '-', and 0 when nothing can be read.
   */
  function PriceToNumber(ad: Listing): (r: int)
    ensures ad.isAuction ==> r == AuctionPrice(ad)
    ensures !ad.isAuction && Falsy(GetPriceFromAd(ad)) ==> r == 0
    ensures !ad.isAuction && Normalized(GetPriceFromAd(ad)) == "free" ==> r == 0
    ensures !ad.isAuction && ParseNumber(KeepNumeric(Normalized(GetPriceFromAd(ad)))).None? ==> r == 0
    ensures !ad.isAuction && !Falsy(GetPriceFromAd(ad)) && Normalized(GetPriceFromAd(ad)) != "free" ==>
      r == ParseNumber(KeepNumeric(Normalized(GetPriceFromAd(ad)))).GetOr(0)
  {
    if ad.isAuction then AuctionPrice(ad) else ValuePrice(GetPriceFromAd(ad))
  }

  /** The number a stored price value sorts as. */
  function ValuePrice(p: PriceValue): int {
    if Falsy(p) then 0
    else
      var s := Normalized(p);
      if s == "free" then 0 else ParseNumber(KeepNumeric(s)).GetOr(0)
  }

  /** The numeral of an integer is made of digits and a leading minus sign, and normalizing leaves it alone. */
  lemma NumeralNormalized(n: int)
    ensures forall k :: 0 <= k < |IntToString(n)| ==> IsDigit(IntToString(n)[k]) || IntToString(n)[k] == '-'
    ensures Normalized(Num(n)) == IntToString(n)
  {
    var s := IntToString(n);
    NumeralChars(n);
    LowerOfNumeric(s);
    assert !IsWhitespace(s[0]) && !IsWhitespace(s[|s| - 1]);
  }

  lemma NumeralChars(n: int)
    ensures forall k :: 0 <= k < |IntToString(n)| ==> IsDigit(IntToString(n)[k]) || IntToString(n)[k] == '-'
  {
    var s := IntToString(n);
    if n < 0 {
      forall k | 0 < k < |s| ensures IsDigit(s[k]) {
        assert s[k] == NatToString(-n)[k - 1];
      }
    }
  }

  /** A numeral is never the word "free". */
  lemma NumeralNotFree(n: int)
    ensures IntToString(n) != "free"
  {
    var s := IntToString(n);
    assert s[0] == '-' || IsDigit(s[0]);
  }

  /** A price stored as the number `n` reads back as `n`. */
  lemma ValuePriceOfNum(n: int)
    ensures ValuePrice(Num(n)) == n
  {
    if n != 0 {
      var s := IntToString(n);
      assert Normalized(Num(n)) == s by { NumeralNormalized(n); }
      assert s != "free" by { NumeralNotFree(n); }
      assert ParseNumber(KeepNumeric(s)) == Some(n) by {
        NumeralChars(n);
        KeepNumericOfNumeric(s);
        ParseIntToString(n);
      }
      ValuePriceOfText(Num(n), s);
    }
  }

  /** A truthy price whose normal form is `s`, other than "free", sorts as the number read from `s`. */
  lemma ValuePriceOfText(p: PriceValue, s: string)
    requires !Falsy(p) && Normalized(p) == s && s != "free"
    ensures ValuePrice(p) == ParseNumber(KeepNumeric(s)).GetOr(0)
  {
  }

  /** A price stored as the number `n` (or its numeral) sorts as `n`. */
  lemma NumericPriceRoundTrip(ad: Listing, n: int)
    requires !ad.isAuction && FirstPresent(ad, PriceFieldNames) == Num(n)
    ensures PriceToNumber(ad) == n
  {
    assert GetPriceFromAd(ad) == Num(n);
    ValuePriceOfNum(n);
  }

  /**
   * Stripping a price string is filtering it by the character class
   * `[0-9.-]`: what is left is a subsequence of the text that keeps every
   * digit, '.' and '-' in order.
   */
  lemma {:induction false} KeepNumericIsFilter(s: string)
    ensures KeepNumeric(s) == Filter(s, IsNumericChar)
    ensures Subsequence(KeepNumeric(s), s)
    decreases |s|
  {
    if |s| > 0 {
      KeepNumericIsFilter(s[1..]);
    }
  }

  /**
   * A price stored as text with no capital letters and no white space at
   * either end, other than "" and "free", sorts as the number read from its
   * digits, '.' and '-' characters.
   */
  lemma PlainTextPrice(ad: Listing, t: string)
    requires !ad.isAuction && FirstPresent(ad, PriceFieldNames) == Str(t)
    requires |t| > 0 && t != "free" && !IsWhitespace(t[0]) && !IsWhitespace(t[|t| - 1])
    requires forall k :: 0 <= k < |t| ==> !('A' <= t[k] <= 'Z')
    ensures PriceToNumber(ad) == ParseNumber(KeepNumeric(t)).GetOr(0)
  {
    PresentPrice(ad, Str(t));
    PlainTextNormalized(t);
    ValuePriceOfText(Str(t), t);
  }

  /** A present price field of an ordinary ad is the price read. */
  lemma PresentPrice(ad: Listing, p: PriceValue)
    requires !ad.isAuction && FirstPresent(ad, PriceFieldNames) == p && p != Absent
    ensures PriceToNumber(ad) == ValuePrice(p)
  {
  }

  lemma PlainTextNormalized(t: string)
    requires |t| > 0 && !IsWhitespace(t[0]) && !IsWhitespace(t[|t| - 1])
    requires forall k :: 0 <= k < |t| ==> !('A' <= t[k] <= 'Z')
    ensures Normalized(Str(t)) == t
  {
    LowerUnchanged(t);
    assert ToJsString(Str(t)) == t;
  }

  /** The price as the posting screen stores it, "৳" and a numeral, sorts as that number. */
  lemma TakaPriceReadsBack(ad: Listing, n: nat)
    requires !ad.isAuction && FirstPresent(ad, PriceFieldNames) == Str("৳" + NatToString(n))
    ensures PriceToNumber(ad) == n
  {
    var ds := NatToString(n);
    var t := "৳" + ds;
    assert t[0] == '৳' && t[|t| - 1] == ds[|ds| - 1];
    assert forall k :: 0 < k < |t| ==> t[k] == ds[k - 1];
    PlainTextPrice(ad, t);
    assert KeepNumeric(t) == ds by { SignThenDigits(ds); }
    ParseDigits(ds);
    DigitsValueOfNatToString(n);
  }

  /**
   * A thousands-grouped price with the currency sign, such as "৳1,500",
   * sorts as its value: the sign and the comma are dropped.
   */
  lemma GroupedTakaPriceReadsBack(ad: Listing, thousands: nat, group: nat)
    requires group < 1000
    requires !ad.isAuction && FirstPresent(ad, PriceFieldNames) == Str("৳" + NatToString(thousands) + "," + ThreeDigits(group))
    ensures PriceToNumber(ad) == thousands * 1000 + group
  {
    var ds, gs := NatToString(thousands), ThreeDigits(group);
    var t := "৳" + ds + "," + gs;
    assert t[0] == '৳' && t[|t| - 1] == gs[2];
    assert forall k :: 0 < k <= |ds| ==> t[k] == ds[k - 1];
    assert t[|ds| + 1] == ',';
    assert forall k :: |ds| + 1 < k < |t| ==> t[k] == gs[k - |ds| - 2];
    PlainTextPrice(ad, t);
    assert KeepNumeric("৳" + ds) == ds by { SignThenDigits(ds); }
    assert KeepNumeric("৳" + ds + ",") == ds by {
      KeepNumericAppend("৳" + ds, ",");
      NonNumericSymbols();
    }
    assert KeepNumeric(t) == ds + gs by {
      KeepNumericAppend("৳" + ds + ",", gs);
      KeepNumericOfNumeric(gs);
    }
    DigitsValueThenGroup(ds, group);
    ParseDigits(ds + gs);
    DigitsValueOfNatToString(thousands);
  }

  lemma NonNumericSymbols()
    ensures KeepNumeric("৳") == "" && KeepNumeric(",") == ""
  {
    assert !IsNumericChar('৳') && !IsNumericChar(',');
  }

  lemma SignThenDigits(ds: string)
    requires AllDigits(ds)
    ensures KeepNumeric("৳" + ds) == ds
  {
    KeepNumericAppend("৳", ds);
    KeepNumericOfNumeric(ds);
    NonNumericSymbols();
  }

  /** "৳1,500" sorts as 1500. */
  lemma GroupedTakaExample(ad: Listing)
    requires !ad.isAuction && FirstPresent(ad, PriceFieldNames) == Str("৳1,500")
    ensures PriceToNumber(ad) == 1500
  {
    assert "৳1,500" == "৳" + NatToString(1) + "," + ThreeDigits(500);
    GroupedTakaPriceReadsBack(ad, 1, 500);
  }

  /** The free-only test of the filter: a falsy price, the word "free", or a price reading as 0. */
  predicate IsFree(ad: Listing) {
    var p := GetPriceFromAd(ad);
    Falsy(p) || Normalized(p) == "free" || PriceToNumber(ad) == 0
  }

  /** The free test keeps exactly the ads whose derived price is 0, auctions included. */
  lemma FreeIffZeroPrice(ad: Listing)
    ensures IsFree(ad) <==> PriceToNumber(ad) == 0
  {
    if ad.isAuction {
      NumeralNormalized(AuctionPrice(ad));
      NumeralNotFree(AuctionPrice(ad));
    }
  }

  /** The title search: a non-empty title whose lower-case form contains the lower-case query. */
  predicate TitleMatches(ad: Listing, query: string) {
    ad.title != "" && Contains(Lower(ad.title), Lower(query))
  }

  /** The search step: a blank query keeps every ad, any other keeps the matching titles in order. */
  function SearchFilter(ads: seq<Listing>, query: string): (r: seq<Listing>)
    ensures AllWhitespace(query) ==> r == ads
    ensures !AllWhitespace(query) ==> forall ad :: ad in r <==> ad in ads && TitleMatches(ad, query)
    ensures !AllWhitespace(query) ==> forall ad :: multiset(r)[ad] == if TitleMatches(ad, query) then multiset(ads)[ad] else 0
    ensures Subsequence(r, ads)
  {
    if Trim(query) == "" then
      assert Subsequence(ads, ads) by { SubsequenceOfItself(ads); }
      ads
    else
      FilterCounts(ads, ad => TitleMatches(ad, query));
      Filter(ads, ad => TitleMatches(ad, query))
  }

  lemma {:induction false} SubsequenceOfItself(s: seq<Listing>)
    ensures Subsequence(s, s)
    decreases |s|
  {
    if |s| > 0 {
      SubsequenceOfItself(s[1..]);
    }
  }

  predicate Cheaper(a: Listing, b: Listing) {
    PriceToNumber(a) <= PriceToNumber(b)
  }

  predicate Dearer(a: Listing, b: Listing) {
    PriceToNumber(a) >= PriceToNumber(b)
  }

  /**
   * The price step: "free" keeps the free ads in order, "lowtohigh" and
   * "hightolow" reorder all ads by derived price, any other choice leaves
   * the list as it is.
   */
  function PriceStage(ads: seq<Listing>, priceSort: string): (r: seq<Listing>)
    ensures priceSort == "free" ==> Subsequence(r, ads) && forall ad :: ad in r <==> ad in ads && PriceToNumber(ad) == 0
    ensures priceSort == "free" ==> forall ad :: multiset(r)[ad] == if PriceToNumber(ad) == 0 then multiset(ads)[ad] else 0
    ensures priceSort == "lowtohigh" ==> (multiset(r) == multiset(ads)
      && forall i, j :: 0 <= i < j < |r| ==> PriceToNumber(r[i]) <= PriceToNumber(r[j]))
    ensures priceSort == "hightolow" ==> (multiset(r) == multiset(ads)
      && forall i, j :: 0 <= i < j < |r| ==> PriceToNumber(r[i]) >= PriceToNumber(r[j]))
    ensures priceSort !in {"free", "lowtohigh", "hightolow"} ==> r == ads
  {
    if priceSort == "free" then
      var r := Filter(ads, IsFree);
      FilterCounts(ads, IsFree);
      assert forall ad :: IsFree(ad) <==> PriceToNumber(ad) == 0 by {
        forall ad: Listing ensures IsFree(ad) <==> PriceToNumber(ad) == 0 { FreeIffZeroPrice(ad); }
      }
      r
    else if priceSort == "lowtohigh" then
      assert TotalPreorder(Cheaper);
      var r := SortBy(ads, Cheaper);
      assert SortedBy(r, Cheaper);
      r
    else if priceSort == "hightolow" then
      assert TotalPreorder(Dearer);
      var r := SortBy(ads, Dearer);
      assert SortedBy(r, Dearer);
      r
    else ads
  }

  /**
   * Both price sorts are stable: ads with the same derived price, such as
   * all the free ones, keep the order in which they were fetched.
   */
  lemma SortKeepsEqualPricesInOrder(ads: seq<Listing>, priceSort: string, n: int)
    requires priceSort == "lowtohigh" || priceSort == "hightolow"
    ensures Filter(PriceStage(ads, priceSort), ad => PriceToNumber(ad) == n) == Filter(ads, ad => PriceToNumber(ad) == n)
  {
    if priceSort == "lowtohigh" {
      SortByStable(ads, Cheaper, ad => PriceToNumber(ad) == n);
    } else {
      SortByStable(ads, Dearer, ad => PriceToNumber(ad) == n);
    }
  }

  /** The screen's list and pagination state. `lastVisible` is the id of the last document fetched. */
  datatype Feed = Feed(ads: seq<Listing>, lastVisible: Option<string>, hasMore: bool, loadingMore: bool)

  function LastId(page: seq<Listing>): Option<string> {
    if |page| == 0 then None else Some(page[|page| - 1].id)
  }

  /** `getAds`: the first page, searched, then price-filtered or sorted; more may follow only after a full page. */
  function GetAds(st: Feed, page: seq<Listing>, query: string, priceSort: string): (r: Feed)
    ensures r.ads == PriceStage(SearchFilter(page, query), priceSort)
    ensures r.hasMore <==> |page| == AdsPerPage
    ensures r.lastVisible.None? <==> |page| == 0
    ensures r.loadingMore == st.loadingMore
  {
    Feed(PriceStage(SearchFilter(page, query), priceSort), LastId(page), |page| == AdsPerPage, st.loadingMore)
  }

  predicate NotAuction(ad: Listing) {
    !ad.isAuction
  }

  /** The part of a further page that joins the list: searched, and without auctions when they are hidden. */
  function NewPagePart(page: seq<Listing>, query: string, showAuctions: bool): (r: seq<Listing>)
    ensures Subsequence(r, page)
    ensures showAuctions ==> r == SearchFilter(page, query)
    ensures !showAuctions ==> forall ad :: ad in r <==> ad in SearchFilter(page, query) && !ad.isAuction
    ensures !showAuctions ==> forall ad :: multiset(r)[ad] == if ad.isAuction then 0 else multiset(SearchFilter(page, query))[ad]
  {
    var found := SearchFilter(page, query);
    if showAuctions then found
    else
      var kept := Filter(found, NotAuction);
      FilterCounts(found, NotAuction);
      SubsequenceTransitive(kept, found, page);
      kept
  }

  lemma {:induction false} SubsequenceTransitive(a: seq<Listing>, b: seq<Listing>, c: seq<Listing>)
    requires Subsequence(a, b) && Subsequence(b, c)
    ensures Subsequence(a, c)
    decreases |c|
  {
    if |c| > 0 {
      if |b| > 0 && b[0] == c[0] && Subsequence(b[1..], c[1..]) {
        if |a| > 0 && a[0] == b[0] && Subsequence(a[1..], b[1..]) {
          SubsequenceTransitive(a[1..], b[1..], c[1..]);
        } else {
          SubsequenceTransitive(a, b[1..], c[1..]);
        }
      } else {
        SubsequenceTransitive(a, b, c[1..]);
      }
    }
  }

  /**
   * `loadMoreAds`: nothing happens without more pages, while a load is under
   * way, or without a cursor. Otherwise the new part is appended to the
   * current list and the price step runs over the whole.
   */
  function LoadMoreAds(st: Feed, page: seq<Listing>, query: string, priceSort: string, showAuctions: bool): (r: Feed)
    ensures !st.hasMore || st.loadingMore || st.lastVisible.None? ==> r == st
    ensures st.hasMore && !st.loadingMore && st.lastVisible.Some? ==>
      && r.ads == PriceStage(st.ads + NewPagePart(page, query, showAuctions), priceSort)
      && (r.hasMore <==> |page| == AdsPerPage)
      && r.lastVisible == LastId(page)
      && !r.loadingMore
  {
    if !st.hasMore || st.loadingMore || st.lastVisible.None? then st
    else Feed(PriceStage(st.ads + NewPagePart(page, query, showAuctions), priceSort), LastId(page), |page| == AdsPerPage, false)
  }

  /** Without a price choice, loading more keeps the old list and appends the new part after it. */
  lemma LoadMoreAppends(st: Feed, page: seq<Listing>, query: string, showAuctions: bool)
    requires st.hasMore && !st.loadingMore && st.lastVisible.Some?
    ensures var r := LoadMoreAds(st, page, query, "", showAuctions);
      && r.ads[..|st.ads|] == st.ads
      && r.ads[|st.ads|..] == NewPagePart(page, query, showAuctions)
  {
  }
}

=== FILE: place_bid.dfy ===
/**
 * The stand-alone place-bid screen: the first suggested amount and the
 * quick-bid ladder (default increment 50), the validator (default increment
 * 1, with the automatic-bidding maximum check), the writes of an accepted
 * bid and the compact remaining-time label. There is no seller check here.
 */
module PlaceBidScreen {
  import opened Wrappers
  import opened Text
  import opened Auctions

  /** The increment used for the suggestion and the quick bids. */
  const SuggestionIncrement: int := 50
  /** The increment used by the validator. */
  const ValidationIncrement: int := 1

  /** The auction of a loaded ad, or an empty one: `adData.auction?.x || 0` reads 0 from a missing record. */
  function AuctionOrEmpty(ad: AdDoc): Auction {
    ad.auction.GetOr(Auction(0, 0, None, 0, None, "", [], false))
  }

  /** The step of the quick-bid ladder: `bidIncrement || 50`. */
  function SuggestedStep(ad: AdDoc): int {
    OrDefault(AuctionOrEmpty(ad).bidIncrement, SuggestionIncrement)
  }

  /** The amount the bid field is filled with on load. */
  function SuggestedBid(ad: AdDoc): (r: int)
    ensures r - SuggestedStep(ad) >= AuctionOrEmpty(ad).currentBid
    ensures r - SuggestedStep(ad) >= AuctionOrEmpty(ad).startingPrice
    ensures r - SuggestedStep(ad) == AuctionOrEmpty(ad).currentBid || r - SuggestedStep(ad) == AuctionOrEmpty(ad).startingPrice
  {
    MinBid(AuctionOrEmpty(ad), SuggestionIncrement)
  }

  /** `generateQuickBids(m, i)`: the minimum and one, two and five steps above it. */
  function QuickBids(m: int, i: int): (r: seq<int>)
    ensures |r| == 4 && r[0] == m
    ensures i > 0 ==> forall j, k :: 0 <= j < k < 4 ==> r[j] < r[k]
    ensures i >= 0 ==> forall k :: 0 <= k < 4 ==> r[k] >= m
    ensures i < 0 ==> forall j, k :: 0 <= j < k < 4 ==> r[j] > r[k]
  {
    [m, m + i, m + i * 2, m + i * 5]
  }

  /** The bid the validator accepted, and the maximum the user allows for automatic bidding. */
  datatype AcceptedBid = AcceptedBid(amount: int, maxBid: int)

  predicate HasEnded(a: Auction, now: int) {
    a.endTime.Some? && a.endTime.value <= now
  }

  /**
   * `validateBid`: the same order as on the details screen, with the
   * maximum-bid check of automatic bidding between the end-time check and
   * the already-highest-bidder check. The maximum is the bid itself when
   * automatic bidding is off.
   */
  function ValidateBid(ad: AdDoc, uid: string, amountText: string, useAutoBid: bool, maxText: string, now: int)
    : (r: Result<AcceptedBid, BidError>)
    ensures r == Err(NotAnAuction) <==> ad.auction.None?
    ensures r == Err(InvalidNumber) <==> ad.auction.Some? && ParseNumber(amountText).None?
    ensures r.Err? && r.error.BidTooLow? <==>
      ad.auction.Some? && ParseNumber(amountText).Some? && ParseNumber(amountText).value < MinBid(ad.auction.value, ValidationIncrement)
    ensures r.Err? && r.error.BidTooLow? ==> r.error.minBid == MinBid(ad.auction.value, ValidationIncrement)
    ensures r == Err(AuctionClosed) <==>
      ad.auction.Some? && ParseNumber(amountText).Some? && ParseNumber(amountText).value >= MinBid(ad.auction.value, ValidationIncrement)
      && ad.auction.value.status != "active"
    ensures r == Err(AuctionEnded) <==>
      ad.auction.Some? && ParseNumber(amountText).Some? && ParseNumber(amountText).value >= MinBid(ad.auction.value, ValidationIncrement)
      && ad.auction.value.status == "active" && HasEnded(ad.auction.value, now)
    ensures r == Err(InvalidMaxBid) <==>
      ad.auction.Some? && ParseNumber(amountText).Some? && ParseNumber(amountText).value >= MinBid(ad.auction.value, ValidationIncrement)
      && ad.auction.value.status == "active" && !HasEnded(ad.auction.value, now)
      && useAutoBid && (ParseNumber(maxText).None? || ParseNumber(maxText).value < ParseNumber(amountText).value)
    ensures r == Err(AlreadyHighestBidder) <==>
      ad.auction.Some? && ParseNumber(amountText).Some? && ParseNumber(amountText).value >= MinBid(ad.auction.value, ValidationIncrement)
      && ad.auction.value.status == "active" && !HasEnded(ad.auction.value, now)
      && (useAutoBid ==> ParseNumber(maxText).Some? && ParseNumber(maxText).value >= ParseNumber(amountText).value)
      && ad.auction.value.currentBidderId == Some(uid)
    ensures r.Ok? ==> ParseNumber(amountText) == Some(r.value.amount)
    ensures r.Ok? ==> r.value.maxBid >= r.value.amount
    ensures r.Ok? ==> r.value.maxBid == if useAutoBid then ParseNumber(maxText).value else r.value.amount
    ensures r.Err? ==> r.error != SellerCannotBid
  {
    if ad.auction.None? then Err(NotAnAuction)
    else
      var a := ad.auction.value;
      var minBid := MinBid(a, ValidationIncrement);
      match ParseNumber(amountText)
      case None => Err(InvalidNumber)
      case Some(v) =>
        if v < minBid then Err(BidTooLow(minBid))
        else if a.status != "active" then Err(AuctionClosed)
        else if HasEnded(a, now) then Err(AuctionEnded)
        else if useAutoBid && (ParseNumber(maxText).None? || ParseNumber(maxText).value < v) then Err(InvalidMaxBid)
        else if a.currentBidderId == Some(uid) then Err(AlreadyHighestBidder)
        else Ok(AcceptedBid(v, if useAutoBid then ParseNumber(maxText).value else v))
  }

  /**
   * `handlePlaceBid` after validation: the `bids` record (with the maximum
   * bid and the automatic-bidding flag), the auction update with one
   * appended bidder and `bidCount + 1`, then the anti-snipe extension.
   */
  function PlaceBid(ad: AdDoc, user: BidUser, amountText: string, useAutoBid: bool, maxText: string, now: int)
    : (r: Result<(AdDoc, BidRecord), BidError>)
    ensures r.Ok? <==> ValidateBid(ad, user.uid, amountText, useAutoBid, maxText, now).Ok?
    ensures r.Err? ==> r.error == ValidateBid(ad, user.uid, amountText, useAutoBid, maxText, now).error
    ensures r.Ok? ==>
      var before, (stored, record) := ad.auction.value, r.value;
      var bid := ValidateBid(ad, user.uid, amountText, useAutoBid, maxText, now).value.amount;
      && stored.auction.Some?
      && stored.auction.value.currentBid == bid
      && stored.auction.value.currentBidderId == Some(user.uid)
      && stored.auction.value.bidders == before.bidders + [Bidder(user.uid, BidderName(user), bid, now, Some(useAutoBid))]
      && stored.bidCount == ad.bidCount + 1
      && stored.(auction := ad.auction, bidCount := ad.bidCount) == ad
      && stored.auction.value.(currentBid := before.currentBid, currentBidderId := before.currentBidderId,
                               bidders := before.bidders, endTime := before.endTime, extended := before.extended) == before
      && (InLastMinutes(before, now) ==> stored.auction.value.endTime == Some(now + ExtensionWindow) && stored.auction.value.extended)
      && (!InLastMinutes(before, now) ==> stored.auction.value.endTime == before.endTime && stored.auction.value.extended == before.extended)
      && (stored.auction.value.endTime.Some? <==> before.endTime.Some?)
      && (before.endTime.Some? ==> stored.auction.value.endTime.value >= before.endTime.value)
      && record.bidAmount == bid && record.bidderId == user.uid && record.isAutoBid == Some(useAutoBid)
      && record.maxBid.Some? && record.maxBid.value >= record.bidAmount
      && record.maxBid == Some(if useAutoBid then ParseNumber(maxText).value else bid)
      && record.adId == ad.adId && record.bidderName == BidderName(user) && record.timestamp == now
  {
    match ValidateBid(ad, user.uid, amountText, useAutoBid, maxText, now)
    case Err(e) => Err(e)
    case Ok(accepted) =>
      var a := ad.auction.value;
      var name := BidderName(user);
      var recorded := RecordBid(ad, a, Bidder(user.uid, name, accepted.amount, now, Some(useAutoBid)));
      var stored := recorded.(auction := Some(AntiSnipe(recorded.auction.value, now)));
      Ok((stored, BidRecord(ad.adId, user.uid, name, accepted.amount, Some(accepted.maxBid), Some(useAutoBid), now)))
  }

  /**
   * Every quick bid offered on load clears the validator's minimum, although
   * the validator defaults a missing increment to 1 and the ladder to 50;
   * it holds for any increment that is not negative.
   */
  lemma QuickBidsPassMinimum(ad: AdDoc, uid: string, useAutoBid: bool, maxText: string, now: int, k: int)
    requires ad.auction.Some? && ad.auction.value.bidIncrement >= 0
    requires 0 <= k < 4
    ensures var amount := QuickBids(SuggestedBid(ad), SuggestedStep(ad))[k];
      var r := ValidateBid(ad, uid, IntToString(amount), useAutoBid, maxText, now);
      r.Ok? || r.error in {AuctionClosed, AuctionEnded, InvalidMaxBid, AlreadyHighestBidder}
  {
    var amount := QuickBids(SuggestedBid(ad), SuggestedStep(ad))[k];
    ParseIntToString(amount);
    assert amount >= SuggestedBid(ad) >= MinBid(ad.auction.value, ValidationIncrement);
  }

  /** With automatic bidding on, a maximum below the bid is refused once the earlier checks pass. */
  lemma MaxBelowBidRefused(ad: AdDoc, uid: string, bid: int, maxBid: int, now: int)
    requires ad.auction.Some? && ad.auction.value.status == "active" && !HasEnded(ad.auction.value, now)
    requires bid >= MinBid(ad.auction.value, ValidationIncrement) && maxBid < bid
    ensures ValidateBid(ad, uid, IntToString(bid), true, IntToString(maxBid), now) == Err(InvalidMaxBid)
  {
    ParseIntToString(bid);
    ParseIntToString(maxBid);
  }

  /** The screen does not stop a seller: the seller's own valid bid is accepted. */
  lemma SellerBidAccepted()
    ensures var ad := AdDoc("ad1", "seller", true, Some(Auction(100, 0, None, 50, Some(3600000), "active", [], false)), 0, None);
      PlaceBid(ad, BidUser("seller", "", ""), IntToString(150), false, "", 0).Ok?
  {
    ParseIntToString(150);
  }

  // ---- the bidder entry's time, as written ----

  /** A value written to a time field: the client's clock, or Firestore's `serverTimestamp()` sentinel. */
  datatype TimeValue = ClientTime(ms: int) | ServerTime

  /** Firestore takes `serverTimestamp()` as a field value but refuses it inside an array. */
  predicate ArrayElementAccepted(t: TimeValue) {
    t.ClientTime?
  }

  /** The time `handlePlaceBid` puts in the new entry of the `auction.bidders` array. */
  const EntryTime: TimeValue := ServerTime

  /** The alert of the `catch` in `handlePlaceBid`. */
  const PlaceFailedAlert := "Could not place bid. Please try again."

  /** What a validated bid leaves behind: the stored ad, the stored bid record, and an error alert if one is shown. */
  datatype BidAttempt = BidAttempt(stored: AdDoc, record: BidRecord, alert: Option<string>)

  /**
   * `handlePlaceBid` as written. The bid record is added first; the
   * auction update then carries an entry whose time is the server
   * sentinel, the update is refused, and the `catch` shows the error alert.
   * The ad is left as it was.
   */
  function PlaceBidAsWritten(ad: AdDoc, user: BidUser, amountText: string, useAutoBid: bool, maxText: string, now: int)
    : (r: Result<BidAttempt, BidError>)
    ensures r.Err? <==> ValidateBid(ad, user.uid, amountText, useAutoBid, maxText, now).Err?
    ensures r.Err? ==> r.error == ValidateBid(ad, user.uid, amountText, useAutoBid, maxText, now).error
    ensures r.Ok? ==> r.value.stored == ad && r.value.alert == Some(PlaceFailedAlert)
    ensures r.Ok? ==> r.value.record == PlaceBid(ad, user, amountText, useAutoBid, maxText, now).value.1
  {
    match PlaceBid(ad, user, amountText, useAutoBid, maxText, now)
    case Err(e) => Err(e)
    case Ok(placed) =>
      var accepted := ArrayElementAccepted(EntryTime);
      Ok(BidAttempt(if accepted then placed.0 else ad, placed.1, if accepted then None else Some(PlaceFailedAlert)))
  }

  /**
   * Every bid that passes validation is lost from the auction as written:
   * the record is stored but the ad keeps its bid count, while the
   * corrected placement, whose entry carries the client's time as the
   * details screen does, counts the bid.
   */
  lemma SentinelBidNeverPlaced(ad: AdDoc, user: BidUser, amountText: string, useAutoBid: bool, maxText: string, now: int)
    requires ValidateBid(ad, user.uid, amountText, useAutoBid, maxText, now).Ok?
    ensures !ArrayElementAccepted(EntryTime) && ArrayElementAccepted(ClientTime(now))
    ensures var written := PlaceBidAsWritten(ad, user, amountText, useAutoBid, maxText, now);
      var placed := PlaceBid(ad, user, amountText, useAutoBid, maxText, now);
      && written.Ok? && placed.Ok?
      && written.value.stored.bidCount == ad.bidCount
      && placed.value.0.bidCount == ad.bidCount + 1
      && written.value.record == placed.value.1
      && written.value.alert == Some(PlaceFailedAlert)
  {
  }

  /** A valid first bid of 150 on a fresh auction: stored as a record, yet the auction still shows no bid. */
  lemma FirstBidLostAsWritten()
    ensures var ad := AdDoc("ad1", "seller", true, Some(Auction(100, 0, None, 50, Some(3600000), "active", [], false)), 0, None);
      var r := PlaceBidAsWritten(ad, BidUser("buyer", "", ""), IntToString(150), false, "", 0);
      && r.Ok? && r.value.record.bidAmount == 150
      && r.value.stored.auction.value.currentBid == 0 && r.value.stored.auction.value.bidders == []
  {
    ParseIntToString(150);
  }

  /**
   * `getTimeRemaining`: "Unknown" without an end time, "Auction Ended" once
   * it has passed, otherwise "Xd Yh Zm" with leading zero units dropped.
   */
  function TimeRemaining(ad: Option<AdDoc>, now: int): (r: string)
    ensures ad.Some? && ad.value.auction.Some? && ad.value.auction.value.endTime.Some? && ad.value.auction.value.endTime.value > now ==>
      var d := Decompose(ad.value.auction.value.endTime.value - now);
      && ParseNumber(r) == Some(if d.days > 0 then d.days else if d.hours > 0 then d.hours else d.minutes)
      && ('d' in r <==> d.days > 0)
      && ('h' in r <==> d.days > 0 || d.hours > 0)
      && r[|r| - 1] == 'm'
      && (d.days > 0 ==> r == NatToString(d.days) + ("d " + NatToString(d.hours) + "h " + NatToString(d.minutes) + "m"))
      && (d.days == 0 && d.hours > 0 ==> r == NatToString(d.hours) + ("h " + NatToString(d.minutes) + "m"))
      && (d.days == 0 && d.hours == 0 ==> r == NatToString(d.minutes) + "m")
    ensures r == "Unknown" <==> ad.None? || ad.value.auction.None? || ad.value.auction.value.endTime.None?
    ensures r == "Auction Ended" <==>
      ad.Some? && ad.value.auction.Some? && ad.value.auction.value.endTime.Some? && ad.value.auction.value.endTime.value <= now
  {
    if ad.None? || ad.value.auction.None? || ad.value.auction.value.endTime.None? then "Unknown"
    else
      var left := ad.value.auction.value.endTime.value - now;
      if left <= 0 then "Auction Ended"
      else
        CompactLabel(Decompose(left))
  }

  /**
   * The compact label: every unit from the largest one present down to the
   * minutes, each number followed by its letter. It reads back as its
   * largest unit and names exactly the units shown.
   */
  function CompactLabel(d: Duration): (shown: string)
    ensures shown != "Unknown" && shown != "Auction Ended"
    ensures ParseNumber(shown) == Some(if d.days > 0 then d.days else if d.hours > 0 then d.hours else d.minutes)
    ensures 'd' in shown <==> d.days > 0
    ensures 'h' in shown <==> d.days > 0 || d.hours > 0
    ensures shown[|shown| - 1] == 'm'
    ensures d.days > 0 ==> shown == NatToString(d.days) + ("d " + NatToString(d.hours) + "h " + NatToString(d.minutes) + "m")
    ensures d.days == 0 && d.hours > 0 ==> shown == NatToString(d.hours) + ("h " + NatToString(d.minutes) + "m")
    ensures d.days == 0 && d.hours == 0 ==> shown == NatToString(d.minutes) + "m"
  {
    if d.days > 0 then DaysCompact(d.days, d.hours, d.minutes)
    else if d.hours > 0 then HoursCompact(d.hours, d.minutes)
    else MinutesCompact(d.minutes)
  }

  /** "Xd Yh Zm". */
  function DaysCompact(days: nat, hours: nat, minutes: nat): (shown: string)
    ensures shown != "Unknown" && shown != "Auction Ended"
    ensures ParseNumber(shown) == Some(days) && 'd' in shown && 'h' in shown && shown[|shown| - 1] == 'm'
    ensures shown == NatToString(days) + ("d " + NatToString(hours) + "h " + NatToString(minutes) + "m")
  {
    var rest := "d " + NatToString(hours) + "h " + NatToString(minutes) + "m";
    assert rest[0] == 'd' && rest[2 + |NatToString(hours)|] == 'h';
    NumeralThen(days, rest);
    NatToString(days) + rest
  }

  /** "Yh Zm". */
  function HoursCompact(hours: nat, minutes: nat): (shown: string)
    ensures shown != "Unknown" && shown != "Auction Ended"
    ensures ParseNumber(shown) == Some(hours) && 'd' !in shown && 'h' in shown && shown[|shown| - 1] == 'm'
    ensures shown == NatToString(hours) + ("h " + NatToString(minutes) + "m")
  {
    NoLettersInNumeral(hours);
    NoLettersInNumeral(minutes);
    var rest := "h " + NatToString(minutes) + "m";
    assert 'd' !in rest by { CompactUnitWords(); }
    assert rest[0] == 'h';
    NumeralThen(hours, rest);
    NatToString(hours) + rest
  }

  /** "Zm". */
  function MinutesCompact(minutes: nat): (shown: string)
    ensures shown != "Unknown" && shown != "Auction Ended"
    ensures ParseNumber(shown) == Some(minutes) && 'd' !in shown && 'h' !in shown && shown[|shown| - 1] == 'm'
    ensures shown == NatToString(minutes) + "m"
  {
    NoLettersInNumeral(minutes);
    CompactUnitWords();
    NumeralThen(minutes, "m");
    NatToString(minutes) + "m"
  }

  lemma CompactUnitWords()
    ensures 'd' !in "h " && 'd' !in "m" && 'h' !in "m"
  {
  }

  lemma NoLettersInNumeral(n: nat)
    ensures 'd' !in NatToString(n) && 'h' !in NatToString(n)
  {
    var s := NatToString(n);
    assert forall k :: 0 <= k < |s| ==> IsDigit(s[k]);
  }
}

=== FILE: post_ad.dfy ===
/**
 * The ad posting form: picking at most five images, removing one, and
 * turning the form into the ad document that is stored.
 */
module PostAdScreen {
  import opened Wrappers
  import opened Text
  import opened Sequences
  import HomeScreen

  const MaxImages: int := 5
  const NoLocation: string := "Location not specified"

  /** An asset returned by the image library; a missing file name is "". */
  datatype Asset = Asset(uri: string, fileName: string)

  /** A picked image as the form keeps it. */
  datatype Image = Image(id: string, uri: string, name: string)

  /** The alert a pick may raise. */
  datatype PickAlert = LimitReached | SelectionLimited(remaining: int)

  datatype Picked = Picked(images: seq<Image>, alert: Option<PickAlert>)

  /** The image name: the asset's file name, else the last '/'-segment of its uri. */
  function FileName(a: Asset): (r: string)
    ensures a.fileName != "" ==> r == a.fileName
    ensures a.fileName == "" ==> ('/' !in r && |r| <= |a.uri| && r == a.uri[|a.uri| - |r|..]
      && (|r| < |a.uri| ==> a.uri[|a.uri| - |r| - 1] == '/'))
  {
    if a.fileName != "" then a.fileName else LastSegment(a.uri, '/')
  }

  /** The id of the `index`-th image of a pick made at `now`. */
  function ImageId(now: nat, index: nat): string {
    NatToString(now) + "_" + NatToString(index)
  }

  /** The images a pick adds, in selection order. */
  function NewImages(selected: seq<Asset>, now: nat): (r: seq<Image>)
    ensures |r| == |selected|
    ensures forall k :: 0 <= k < |r| ==> r[k] == Image(ImageId(now, k), selected[k].uri, FileName(selected[k]))
  {
    seq(|selected|, k requires 0 <= k < |selected| => Image(ImageId(now, k), selected[k].uri, FileName(selected[k])))
  }

  function Min(a: int, b: int): int {
    if a <= b then a else b
  }

  /**
   * `pickImages` given what the library returned: refused with five or
   * more images; nothing on a cancelled or empty selection; otherwise only
   * the first `5 - current` assets are taken, with an alert when more were
   * chosen.
   */
  function PickImages(images: seq<Image>, canceled: bool, assets: seq<Asset>, now: nat): (r: Picked)
    ensures |images| >= MaxImages ==> r == Picked(images, Some(LimitReached))
    ensures |images| < MaxImages ==> |r.images| <= MaxImages
    ensures |images| < MaxImages && (canceled || |assets| == 0) ==> r == Picked(images, None)
    ensures |images| < MaxImages && !canceled && |assets| > 0 ==>
      var taken := Min(MaxImages - |images|, |assets|);
      && |r.images| == |images| + taken
      && r.images[..|images|] == images
      && r.images[|images|..] == NewImages(assets[..taken], now)
      && (r.alert == Some(SelectionLimited(MaxImages - |images|)) <==> |assets| > MaxImages - |images|)
      && (r.alert.None? <==> |assets| <= MaxImages - |images|)
  {
    if |images| >= MaxImages then Picked(images, Some(LimitReached))
    else if canceled || |assets| == 0 then Picked(images, None)
    else
      var remaining := MaxImages - |images|;
      var selected := assets[..Min(remaining, |assets|)];
      var alert := if |assets| > remaining then Some(SelectionLimited(remaining)) else None;
      Picked(images + NewImages(selected, now), alert)
  }

  /** The images added by one pick have pairwise different ids. */
  lemma PickIdsDistinct(selected: seq<Asset>, now: nat)
    ensures var r := NewImages(selected, now);
      forall i, j :: 0 <= i < j < |r| ==> r[i].id != r[j].id
  {
    var r := NewImages(selected, now);
    forall i, j | 0 <= i < j < |r| ensures r[i].id != r[j].id {
      ImageIdInjective(now, i, j);
      assert r[i].id == ImageId(now, i) && r[j].id == ImageId(now, j);
    }
  }

  lemma ImageIdInjective(now: nat, i: nat, j: nat)
    ensures ImageId(now, i) == ImageId(now, j) ==> i == j
  {
    var p := NatToString(now) + "_";
    assert ImageId(now, i) == p + NatToString(i);
    assert ImageId(now, j) == p + NatToString(j);
    assert NatToString(i) == ImageId(now, i)[|p|..];
    assert NatToString(j) == ImageId(now, j)[|p|..];
    DigitsValueOfNatToString(i);
    DigitsValueOfNatToString(j);
  }

  predicate OtherId(im: Image, id: string) {
    im.id != id
  }

  /** `removeImage`: the images with that id go, the others stay in order. */
  function RemoveImage(images: seq<Image>, id: string): (r: seq<Image>)
    ensures Subsequence(r, images)
    ensures forall im :: im in r <==> im in images && im.id != id
    ensures forall im :: multiset(r)[im] == if im.id != id then multiset(images)[im] else 0
  {
    FilterCounts(images, im => OtherId(im, id));
    Filter(images, im => OtherId(im, id))
  }

  /** Removing an id no image has changes nothing. */
  lemma RemoveAbsentId(images: seq<Image>, id: string)
    requires forall k :: 0 <= k < |images| ==> images[k].id != id
    ensures RemoveImage(images, id) == images
  {
    FilterAll(images, im => OtherId(im, id));
  }

  /** The form fields. */
  datatype FormData = FormData(title: string, category: string, Price: string, contactnum: string, description: string, location: string)

  const EmptyForm: FormData := FormData("", "", "", "", "", "")

  /** The signed-in poster; a missing e-mail is "". */
  datatype Poster = Poster(uid: string, email: string)

  /** An uploaded image as the ad document keeps it: its download url and its storage path. */
  datatype StoredImage = StoredImage(url: string, path: string)

  /** The stored ad document; `adId` is merged in after the document is added. */
  datatype AdData = AdData(
    images: seq<StoredImage>,
    title: string,
    category: string,
    Price: string,
    contactnum: string,
    location: string,
    description: string,
    isDonated: bool,
    publishedAt: int,
    postedBy: string,
    userEmail: Option<string>,
    adId: Option<string>)

  /**
   * How the three writes of a post went: `addDoc` of the ad (which gives
   * its id), the merge of `adId` into it, and the empty favourites document
   * under the same id. Each stops the post when it fails.
   */
  datatype WriteOutcome = AddFails(message: string) | MergeFails(id: string, message: string)
    | FavoritesFails(id: string, message: string) | AllWritten(id: string)

  /**
   * Why a post is refused: a required field is empty, an image could not
   * be uploaded, or a write failed; `stored` is the ad document the failed
   * post left behind, if any.
   */
  datatype SubmitError = MissingRequiredFields | UploadFailed(message: string)
    | WriteFailed(message: string, stored: Option<AdData>)

  /** After a post: the stored ad, its favourites document's id, the cleared form and the cleared images. */
  datatype Posted = Posted(ad: AdData, favorites: string, form: FormData, images: seq<Image>)

  /** An ad counts as a donation when its price reads "free" in any letter case, or is "0". */
  predicate IsDonated(price: string) {
    Lower(price) == "free" || price == "0"
  }

  predicate MissingField(form: FormData) {
    form.title == "" || form.category == "" || form.Price == "" || form.contactnum == ""
  }

  /** The ad document a post adds, before its id is merged in. */
  function NewAd(form: FormData, stored: seq<StoredImage>, user: Poster, now: int): (ad: AdData)
    ensures ad.images == stored
    ensures ad.title == form.title && ad.category == form.category && ad.Price == form.Price
    ensures ad.contactnum == form.contactnum && ad.description == form.description
    ensures form.location == "" ==> ad.location == NoLocation
    ensures form.location != "" ==> ad.location == form.location
    ensures ad.isDonated <==> IsDonated(form.Price)
    ensures ad.postedBy == user.uid && ad.publishedAt == now
    ensures ad.userEmail.None? <==> user.email == ""
    ensures ad.userEmail.Some? ==> ad.userEmail.value == user.email
    ensures ad.adId.None?
  {
    AdData(
      stored,
      form.title,
      form.category,
      form.Price,
      form.contactnum,
      if form.location == "" then NoLocation else form.location,
      form.description,
      IsDonated(form.Price),
      now,
      user.uid,
      if user.email == "" then None else Some(user.email),
      None)
  }

  /**
   * `handleSubmit`: refused unless title, category, price and contact
   * number are all filled in. Picked images are uploaded first; `upload`
   * is what that step gave back, one stored image per picked one or the
   * error that stopped it, and an error stops the post. Without picked
   * images nothing is uploaded and the stored list is empty. Then the ad
   * is added, its id merged in and its favourites document created; a
   * failed write stops the post with what was stored so far. Only a post
   * that got through every step clears the form and the images; on an
   * error the screen keeps them.
   */
  function SubmitAd(form: FormData, images: seq<Image>, upload: Result<seq<StoredImage>, string>,
                    write: WriteOutcome, user: Poster, now: int)
    : (r: Result<Posted, SubmitError>)
    ensures r == Err(MissingRequiredFields) <==> MissingField(form)
    ensures r.Err? && r.error.UploadFailed? <==> !MissingField(form) && |images| > 0 && upload.Err?
    ensures r.Err? && r.error.WriteFailed? <==> !MissingField(form) && !(|images| > 0 && upload.Err?) && !write.AllWritten?
    ensures r.Err? && r.error.WriteFailed? ==> r.error.message == write.message
    ensures r.Err? && r.error.WriteFailed? && write.AddFails? ==> r.error.stored.None?
    ensures r.Err? && r.error.WriteFailed? && write.MergeFails? ==>
      r.error.stored.Some? && r.error.stored.value.adId.None? && r.error.stored.value.title == form.title
    ensures r.Err? && r.error.WriteFailed? && write.FavoritesFails? ==>
      r.error.stored.Some? && r.error.stored.value.adId == Some(write.id)
    ensures r.Ok? ==>
      var ad := r.value.ad;
      && write.AllWritten? && ad.adId == Some(write.id) && r.value.favorites == write.id
      && ad.title == form.title && ad.category == form.category && ad.Price == form.Price
      && ad.contactnum == form.contactnum && ad.description == form.description
      && (form.location == "" ==> ad.location == NoLocation)
      && (form.location != "" ==> ad.location == form.location)
      && (ad.isDonated <==> IsDonated(form.Price))
      && ad.postedBy == user.uid && ad.publishedAt == now
      && (ad.userEmail.None? <==> user.email == "")
      && (|images| == 0 ==> ad.images == [])
      && (|images| > 0 ==> upload.Ok? && ad.images == upload.value)
      && r.value.form == EmptyForm && r.value.images == []
  {
    if MissingField(form) then Err(MissingRequiredFields)
    else if |images| > 0 && upload.Err? then Err(UploadFailed(upload.error))
    else
      var ad := NewAd(form, if |images| > 0 then upload.value else [], user, now);
      match write
      case AddFails(msg) => Err(WriteFailed(msg, None))
      case MergeFails(_, msg) => Err(WriteFailed(msg, Some(ad)))
      case FavoritesFails(id, msg) => Err(WriteFailed(msg, Some(ad.(adId := Some(id)))))
      case AllWritten(id) => Ok(Posted(ad.(adId := Some(id)), id, EmptyForm, []))
  }

  /**
   * A post whose writes fail after the ad was added leaves behind the ad a
   * successful post stores: without its id when the merge failed, in full
   * when only the favourites document failed.
   */
  lemma FailedWriteKeepsAd(form: FormData, images: seq<Image>, upload: Result<seq<StoredImage>, string>, id: string, msg: string, user: Poster, now: int)
    requires !MissingField(form) && !(|images| > 0 && upload.Err?)
    ensures var ok := SubmitAd(form, images, upload, AllWritten(id), user, now);
      && ok.Ok?
      && SubmitAd(form, images, upload, MergeFails(id, msg), user, now) == Err(WriteFailed(msg, Some(ok.value.ad.(adId := None))))
      && SubmitAd(form, images, upload, FavoritesFails(id, msg), user, now) == Err(WriteFailed(msg, Some(ok.value.ad)))
  {
  }

  /** The posted ad as the browse screen sees it: a plain listing whose only price field is `Price`. */
  function AsListing(id: string, ad: AdData): HomeScreen.Listing {
    HomeScreen.Listing(id, ad.title, false, 0, 0, map["Price" := HomeScreen.Str(ad.Price)])
  }

  /** A donated ad is listed as free on the browse screen. */
  lemma DonatedAdListedFree(id: string, ad: AdData)
    requires ad.isDonated <==> IsDonated(ad.Price)
    requires ad.isDonated
    ensures HomeScreen.PriceToNumber(AsListing(id, ad)) == 0
    ensures HomeScreen.IsFree(AsListing(id, ad))
  {
    var l := AsListing(id, ad);
    ListedPriceIsPrice(id, ad);
    if Lower(ad.Price) == "free" {
      FreeWordNormalized(ad.Price);
    } else {
      ZeroReadsZero();
    }
    HomeScreen.FreeIffZeroPrice(l);
  }

  lemma FreeWordNormalized(price: string)
    requires Lower(price) == "free"
    ensures HomeScreen.Normalized(HomeScreen.Str(price)) == "free"
  {
    assert !IsWhitespace('f') && !IsWhitespace('e');
    assert Trim("free") == "free";
  }

  lemma ListedPriceIsPrice(id: string, ad: AdData)
    ensures HomeScreen.GetPriceFromAd(AsListing(id, ad)) == HomeScreen.Str(ad.Price)
  {
    var l := AsListing(id, ad);
    var names := HomeScreen.PriceFieldNames;
    assert HomeScreen.Field(l, names[0]) == HomeScreen.Absent;
    assert HomeScreen.Field(l, names[1]) == HomeScreen.Str(ad.Price);
    assert HomeScreen.FirstPresent(l, names) == HomeScreen.FirstPresent(l, names[1..]);
  }

  lemma ZeroReadsZero()
    ensures HomeScreen.Normalized(HomeScreen.Str("0")) == "0"
    ensures ParseNumber(KeepNumeric("0")) == Some(0)
  {
    assert Lower("0") == "0";
    assert Trim("0") == "0";
    KeepNumericOfNumeric("0");
    ParseIntToString(0);
    assert IntToString(0) == "0";
  }
}

=== FILE: seller_profile.dfy ===
/**
 * The seller profile card: links to the seller's social accounts, the
 * "no social links" note, and the price label on each of the seller's ads.
 */
module SellerProfile {
  import opened Wrappers
  import opened Text
  import opened Sequences

  /** The platforms offered, in display order. */
  const Platforms: seq<string> := ["facebook", "instagram", "twitter", "linkedin", "whatsapp", "telegram"]

  /** The host part of a platform's link; "" for a platform not offered. */
  function Host(platform: string): string {
    if platform == "facebook" then "facebook.com/"
    else if platform == "instagram" then "instagram.com/"
    else if platform == "twitter" then "twitter.com/"
    else if platform == "linkedin" then "linkedin.com/in/"
    else if platform == "whatsapp" then "wa.me/"
    else if platform == "telegram" then "t.me/"
    else ""
  }

  /** The address a platform's link starts with. */
  function UrlPrefix(platform: string): string {
    "https://" + Host(platform)
  }

  /** `openSocialLink`: the address opened, or none for an empty user name or an unknown platform. */
  function SocialUrl(platform: string, username: string): (r: Option<string>)
    ensures username == "" ==> r.None?
    ensures platform !in Platforms ==> r.None?
    ensures username != "" && platform in Platforms ==>
      r.Some? && |UrlPrefix(platform)| >= 8 && r.value == UrlPrefix(platform) + username
  {
    if username == "" || platform !in Platforms then None
    else Some(UrlPrefix(platform) + username)
  }

  /** Different platforms never produce the same address, whatever the user names. */
  lemma UrlIdentifiesPlatform(p1: string, u1: string, p2: string, u2: string)
    requires SocialUrl(p1, u1).Some? && SocialUrl(p1, u1) == SocialUrl(p2, u2)
    ensures p1 == p2 && u1 == u2
  {
    var a, b := UrlPrefix(p1), UrlPrefix(p2);
    assert a + u1 == b + u2;
    HostStart(p1);
    HostStart(p2);
    assert (a + u1)[8] == a[8] && (a + u1)[9] == a[9];
    assert (b + u2)[8] == b[8] && (b + u2)[9] == b[9];
    PrefixesDiffer(p1, p2);
    assert u1 == (a + u1)[|a|..];
  }

  /** The offered platforms' hosts differ in their first two characters. */
  lemma PrefixesDiffer(p1: string, p2: string)
    requires p1 in Platforms && p2 in Platforms
    requires UrlPrefix(p1)[8] == UrlPrefix(p2)[8] && UrlPrefix(p1)[9] == UrlPrefix(p2)[9]
    ensures p1 == p2
  {
    HostStart(p1);
    HostStart(p2);
  }

  /** The first two characters of each offered host. */
  lemma HostStart(p: string)
    requires p in Platforms
    ensures |Host(p)| >= 5
    ensures UrlPrefix(p)[8] == Host(p)[0] && UrlPrefix(p)[9] == Host(p)[1]
    ensures p == "facebook" <==> Host(p)[0] == 'f'
    ensures p == "instagram" <==> Host(p)[0] == 'i'
    ensures p == "linkedin" <==> Host(p)[0] == 'l'
    ensures p == "twitter" <==> Host(p)[0] == 't' && Host(p)[1] == 'w'
    ensures p == "telegram" <==> Host(p)[0] == 't' && Host(p)[1] == '.'
    ensures p == "whatsapp" <==> Host(p)[0] == 'w'
  {
  }

  /** `seller.socials?.[key]`, "" when missing. */
  function Username(socials: map<string, string>, platform: string): string {
    if platform in socials then socials[platform] else ""
  }

  predicate HasLink(socials: map<string, string>, platform: string) {
    Username(socials, platform) != ""
  }

  /** The platforms that get a button, in display order. */
  function Buttons(socials: map<string, string>): (r: seq<string>)
    ensures Subsequence(r, Platforms)
    ensures forall p :: p in r <==> p in Platforms && Username(socials, p) != ""
  {
    Filter(Platforms, p => HasLink(socials, p))
  }

  /** The "no social media links" note is shown when no platform has a user name. */
  predicate NoSocials(socials: map<string, string>) {
    forall k :: 0 <= k < |Platforms| ==> Username(socials, Platforms[k]) == ""
  }

  /** The note shows exactly when there is no button, that is when no platform yields an address. */
  lemma NoSocialsIffNoLink(socials: map<string, string>)
    ensures NoSocials(socials) <==> Buttons(socials) == []
    ensures NoSocials(socials) <==> forall k :: 0 <= k < |Platforms| ==> SocialUrl(Platforms[k], Username(socials, Platforms[k])).None?
  {
    if !NoSocials(socials) {
      var k :| 0 <= k < |Platforms| && Username(socials, Platforms[k]) != "";
      assert Platforms[k] in Buttons(socials);
    }
  }

  /** The part of an ad the label needs; missing numbers are 0 and a missing price is `None`. */
  datatype ProfileAd = ProfileAd(isAuction: bool, auction: Option<AuctionPrices>, Price: Option<string>)

  datatype AuctionPrices = AuctionPrices(currentBid: int, startingPrice: int)

  const Taka: string := "৳"

  /**
   * `formatPrice`: "N/A" without an ad; for an auction the current bid when
   * positive, else the starting price; otherwise "Free" for "Free" or "0",
   * "Price not set" for a missing or empty price, else the price after the
   * taka sign.
   */
  function FormatPrice(ad: Option<ProfileAd>): (r: string)
    ensures ad.None? ==> r == "N/A"
    ensures ad.Some? && ad.value.isAuction && ad.value.auction.Some? ==>
      var a := ad.value.auction.value;
      |r| > 1 && r[..1] == Taka && ParseNumber(r[1..]) == Some(if a.currentBid > 0 then a.currentBid else a.startingPrice)
    ensures ad.Some? && !(ad.value.isAuction && ad.value.auction.Some?) ==>
      var p := ad.value.Price;
      && (r == "Free" <==> p == Some("Free") || p == Some("0"))
      && (r == "Price not set" <==> p.None? || p == Some(""))
      && (p.Some? && p.value !in {"", "Free", "0"} ==> r == Taka + p.value)
  {
    if ad.None? then "N/A"
    else if ad.value.isAuction && ad.value.auction.Some? then
      var a := ad.value.auction.value;
      var shown := if a.currentBid > 0 then a.currentBid else a.startingPrice;
      ParseIntToString(shown);
      assert (Taka + IntToString(shown))[1..] == IntToString(shown);
      Taka + IntToString(shown)
    else
      var p := ad.value.Price;
      if p == Some("Free") || p == Some("0") then "Free"
      else if p.None? || p == Some("") then "Price not set"
      else
        assert (Taka + p.value)[0] == Taka[0];
        Taka + p.value
  }
}

=== FILE: sequences.dfy ===
/**
 * `Array.prototype.filter` and the stable `Array.prototype.sort`, over
 * immutable sequences, with the facts the screens need about them.
 */
module Sequences {

  /** `a` is what remains of `b` after deleting some elements, order kept. */
  predicate Subsequence<T(==)>(a: seq<T>, b: seq<T>)
    decreases |b|
  {
    if |b| == 0 then |a| == 0
    else (|a| > 0 && a[0] == b[0] && Subsequence(a[1..], b[1..])) || Subsequence(a, b[1..])
  }

  /** `s.filter(p)`: the elements satisfying `p`, in their original order. */
  function Filter<T(==,!new)>(s: seq<T>, p: T -> bool): (r: seq<T>)
    ensures |r| <= |s|
    ensures forall x :: x in r <==> x in s && p(x)
    ensures Subsequence(r, s)
  {
    if |s| == 0 then []
    else
      var rest := Filter(s[1..], p);
      if p(s[0]) then
        assert ([s[0]] + rest)[1..] == rest;
        [s[0]] + rest
      else rest
  }

  /** The filter keeps every copy of an element that passes and none of one that fails. */
  lemma {:induction false} FilterCounts<T(!new)>(s: seq<T>, p: T -> bool)
    ensures forall x :: multiset(Filter(s, p))[x] == if p(x) then multiset(s)[x] else 0
    decreases |s|
  {
    if |s| > 0 {
      FilterCounts(s[1..], p);
      assert s == [s[0]] + s[1..];
      var rest := Filter(s[1..], p);
      if p(s[0]) {
        assert Filter(s, p) == [s[0]] + rest;
      }
    }
  }

  lemma {:induction false} FilterAll<T(!new)>(s: seq<T>, p: T -> bool)
    requires forall k :: 0 <= k < |s| ==> p(s[k])
    ensures Filter(s, p) == s
    decreases |s|
  {
    if |s| > 0 {
      FilterAll(s[1..], p);
      assert [s[0]] + s[1..] == s;
    }
  }

  lemma {:induction false} FilterAppend<T(!new)>(a: seq<T>, b: seq<T>, p: T -> bool)
    ensures Filter(a + b, p) == Filter(a, p) + Filter(b, p)
    decreases |a|
  {
    if |a| == 0 {
      assert a + b == b;
    } else {
      assert (a + b)[1..] == a[1..] + b;
      FilterAppend(a[1..], b, p);
    }
  }

  /** A subsequence of a sequence without repeated keys has none either. */
  lemma {:induction false} SubsequenceKeepsDistinct<T, K>(a: seq<T>, b: seq<T>, key: T -> K)
    requires Subsequence(a, b)
    requires forall i, j :: 0 <= i < j < |b| ==> key(b[i]) != key(b[j])
    ensures forall i, j :: 0 <= i < j < |a| ==> key(a[i]) != key(a[j])
    decreases |b|
  {
    if |b| > 0 {
      if |a| > 0 && a[0] == b[0] && Subsequence(a[1..], b[1..]) {
        SubsequenceKeepsDistinct(a[1..], b[1..], key);
        SubsequenceElements(a[1..], b[1..]);
        forall j | 0 < j < |a| ensures key(a[0]) != key(a[j]) {
          assert a[j] == a[1..][j - 1];
          assert a[j] in a[1..];
          assert a[j] in b[1..];
          var k :| 0 <= k < |b[1..]| && b[1..][k] == a[j];
          assert b[k + 1] == a[j];
        }
        forall i, j | 0 <= i < j < |a| ensures key(a[i]) != key(a[j]) {
          if i > 0 {
            assert a[i] == a[1..][i - 1] && a[j] == a[1..][j - 1];
          }
        }
      } else {
        SubsequenceKeepsDistinct(a, b[1..], key);
      }
    }
  }

  lemma {:induction false} SubsequenceElements<T>(a: seq<T>, b: seq<T>)
    requires Subsequence(a, b)
    ensures forall x :: x in a ==> x in b
    decreases |b|
  {
    if |b| > 0 {
      if |a| > 0 && a[0] == b[0] && Subsequence(a[1..], b[1..]) {
        SubsequenceElements(a[1..], b[1..]);
        assert a == [a[0]] + a[1..];
      } else {
        SubsequenceElements(a, b[1..]);
      }
    }
  }

  // ---- sorting ----

  /** `le` orders every pair and is transitive: what a consistent comparator gives. */
  ghost predicate TotalPreorder<T(!new)>(le: (T, T) -> bool) {
    && (forall a, b :: le(a, b) || le(b, a))
    && (forall a, b, c :: le(a, b) && le(b, c) ==> le(a, c))
  }

  predicate SortedBy<T>(s: seq<T>, le: (T, T) -> bool) {
    forall i, j :: 0 <= i < j < |s| ==> le(s[i], s[j])
  }

  /** Puts `x` before the first element it may precede; equal elements keep `x` first. */
  function Insert<T(==)>(x: T, s: seq<T>, le: (T, T) -> bool): (r: seq<T>)
    ensures multiset(r) == multiset(s) + multiset{x}
  {
    if |s| == 0 then [x]
    else if le(x, s[0]) then [x] + s
    else
      assert s == [s[0]] + s[1..];
      [s[0]] + Insert(x, s[1..], le)
  }

  lemma {:induction false} InsertSorted<T(!new)>(x: T, s: seq<T>, le: (T, T) -> bool)
    requires TotalPreorder(le)
    requires SortedBy(s, le)
    ensures SortedBy(Insert(x, s, le), le)
    decreases |s|
  {
    if |s| == 0 {
    } else if le(x, s[0]) {
      forall y | y in s ensures le(x, y) {
        var k :| 0 <= k < |s| && s[k] == y;
        if k > 0 {
          assert le(s[0], s[k]);
        }
      }
      ConsSorted(x, s, le);
    } else {
      var tail := s[1..];
      var rest := Insert(x, tail, le);
      InsertSorted(x, tail, le);
      assert le(s[0], x);
      forall y | y in rest ensures le(s[0], y) {
        assert y in multiset(rest);
        if y != x {
          assert y in multiset(tail);
          var k :| 0 <= k < |tail| && tail[k] == y;
          assert s[k + 1] == y;
        }
      }
      ConsSorted(s[0], rest, le);
    }
  }

  /** A sorted list stays sorted when an element that may precede all of it goes first. */
  lemma ConsSorted<T>(a: T, rest: seq<T>, le: (T, T) -> bool)
    requires SortedBy(rest, le)
    requires forall y :: y in rest ==> le(a, y)
    ensures SortedBy([a] + rest, le)
  {
    var r := [a] + rest;
    forall i, j | 0 <= i < j < |r| ensures le(r[i], r[j]) {
      assert r[j] == rest[j - 1];
      if i > 0 {
        assert r[i] == rest[i - 1];
      }
    }
  }

  lemma InsertKeepsSorted<T(!new)>(x: T, s: seq<T>, le: (T, T) -> bool)
    ensures TotalPreorder(le) && SortedBy(s, le) ==> SortedBy(Insert(x, s, le), le)
  {
    if TotalPreorder(le) && SortedBy(s, le) {
      InsertSorted(x, s, le);
    }
  }

  /**
   * A stable sort: the result is a permutation of `s` and, for a consistent
   * comparator, ordered by `le`, earlier elements staying first among equals.
   */
  function SortBy<T(==,!new)>(s: seq<T>, le: (T, T) -> bool): (r: seq<T>)
    ensures multiset(r) == multiset(s)
    ensures |r| == |s|
    ensures TotalPreorder(le) ==> SortedBy(r, le)
  {
    if |s| == 0 then []
    else
      var rest := SortBy(s[1..], le);
      assert s == [s[0]] + s[1..];
      InsertKeepsSorted(s[0], rest, le);
      Insert(s[0], rest, le)
  }

  // ---- stability ----

  /**
   * Inserting `x` keeps, among the elements `q` selects, the order they
   * had, with `x` first: when `q` only selects elements `le` ranks equal,
   * `x` goes before every one of them.
   */
  lemma {:induction false} InsertKeepsTies<T(!new)>(x: T, s: seq<T>, le: (T, T) -> bool, q: T -> bool)
    requires forall a, b :: q(a) && q(b) ==> le(a, b)
    ensures Filter(Insert(x, s, le), q) == if q(x) then [x] + Filter(s, q) else Filter(s, q)
    decreases |s|
  {
    if |s| == 0 {
      assert [x][1..] == [];
    } else if le(x, s[0]) {
      assert ([x] + s)[1..] == s;
    } else {
      var rest := Insert(x, s[1..], le);
      assert ([s[0]] + rest)[1..] == rest;
      InsertKeepsTies(x, s[1..], le, q);
    }
  }

  /**
   * The sort is stable: the elements a predicate selects, all ranked equal
   * by `le`, come out in the order they went in.
   */
  lemma {:induction false} SortByStable<T(!new)>(s: seq<T>, le: (T, T) -> bool, q: T -> bool)
    requires forall a, b :: q(a) && q(b) ==> le(a, b)
    ensures Filter(SortBy(s, le), q) == Filter(s, q)
    decreases |s|
  {
    if |s| > 0 {
      SortByStable(s[1..], le, q);
      InsertKeepsTies(s[0], SortBy(s[1..], le), le, q);
    }
  }
}

=== FILE: text.dfy ===
/**
 * The string primitives the screens rely on, written out over `seq<char>`:
 * JavaScript's `trim`, ASCII `toLowerCase`, `includes`, `split`, the
 * decimal rendering of an integer and `parseFloat` read as an integer.
 */
module Text {
  import opened Wrappers

  /** The characters `String.prototype.trim` removes: white space and line terminators. */
  predicate IsWhitespace(c: char) {
    || c == '\t' || c == '\n' || c == '\U{B}' || c == '\U{C}' || c == '\r' || c == ' '
    || c == '\U{A0}' || c == '\U{1680}' || ('\U{2000}' <= c <= '\U{200A}')
    || c == '\U{2028}' || c == '\U{2029}' || c == '\U{202F}' || c == '\U{205F}'
    || c == '\U{3000}' || c == '\U{FEFF}'
  }

  predicate AllWhitespace(s: string) {
    forall k :: 0 <= k < |s| ==> IsWhitespace(s[k])
  }

  /** Drops leading white space: the result is the suffix of `s` that starts at its first non-space. */
  function TrimStart(s: string): (r: string)
    ensures |r| <= |s| && r == s[|s| - |r|..]
    ensures AllWhitespace(s[..|s| - |r|])
    ensures |r| > 0 ==> !IsWhitespace(r[0])
  {
    if |s| > 0 && IsWhitespace(s[0]) then
      var r := TrimStart(s[1..]);
      TrimStartStep(s, r);
      r
    else s
  }

  /** One more leading space in front of a trimmed tail. */
  lemma TrimStartStep(s: string, r: string)
    requires |s| > 0 && IsWhitespace(s[0])
    requires |r| <= |s| - 1 && r == s[1..][|s| - 1 - |r|..]
    requires AllWhitespace(s[1..][..|s| - 1 - |r|])
    ensures r == s[|s| - |r|..]
    ensures AllWhitespace(s[..|s| - |r|])
  {
    forall k | 0 <= k < |s| - |r| ensures IsWhitespace(s[k]) {
      if k > 0 {
        assert s[k] == s[1..][..|s| - 1 - |r|][k - 1];
      }
    }
  }

  /** Drops trailing white space: the result is the prefix of `s` that ends at its last non-space. */
  function TrimEnd(s: string): (r: string)
    ensures |r| <= |s| && r == s[..|r|]
    ensures AllWhitespace(s[|r|..])
    ensures |r| > 0 ==> !IsWhitespace(r[|r| - 1])
  {
    if |s| > 0 && IsWhitespace(s[|s| - 1]) then
      var r := TrimEnd(s[..|s| - 1]);
      assert s[|r|..] == s[..|s| - 1][|r|..] + [s[|s| - 1]];
      r
    else s
  }

  /** JavaScript's `s.trim()`. */
  function Trim(s: string): (r: string)
    ensures r == "" <==> AllWhitespace(s)
    ensures |s| == 0 || (!IsWhitespace(s[0]) && !IsWhitespace(s[|s| - 1])) ==> r == s
  {
    TrimBlank(s);
    TrimEnd(TrimStart(s))
  }

  /** Trimming leaves nothing exactly when every character is white space. */
  lemma TrimBlank(s: string)
    ensures TrimEnd(TrimStart(s)) == "" <==> AllWhitespace(s)
  {
    var t := TrimStart(s);
    if TrimEnd(t) == "" {
      assert AllWhitespace(t) by {
        assert t[|TrimEnd(t)|..] == t;
      }
      AllWhitespaceJoin(s[..|s| - |t|], t);
      assert s == s[..|s| - |t|] + t;
    }
    if |t| > 0 {
      assert t[0] == s[|s| - |t|];
    }
  }

  lemma AllWhitespaceJoin(a: string, b: string)
    requires AllWhitespace(a) && AllWhitespace(b)
    ensures AllWhitespace(a + b)
  {
    forall k | 0 <= k < |a + b| ensures IsWhitespace((a + b)[k]) {
      if k < |a| {
        assert (a + b)[k] == a[k];
      } else {
        assert (a + b)[k] == b[k - |a|];
      }
    }
  }

  /** ASCII case folding, the part of `toLowerCase` the model covers. */
  function LowerChar(c: char): char {
    if 'A' <= c <= 'Z' then (c as int + 32) as char else c
  }

  function Lower(s: string): (r: string)
    ensures |r| == |s|
    ensures forall k :: 0 <= k < |s| ==> r[k] == LowerChar(s[k])
  {
    if |s| == 0 then "" else [LowerChar(s[0])] + Lower(s[1..])
  }

  predicate OccursAt(s: string, part: string, i: int) {
    0 <= i <= |s| - |part| && s[i..i + |part|] == part
  }

  /** JavaScript's `s.includes(part)`. */
  predicate Contains(s: string, part: string) {
    exists i | 0 <= i <= |s| - |part| :: OccursAt(s, part, i)
  }

  /** Puts `sep` between consecutive parts; the inverse of `Split`. */
  function Join(parts: seq<string>, sep: char): string
    decreases |parts|
  {
    if |parts| == 0 then ""
    else if |parts| == 1 then parts[0]
    else parts[0] + [sep] + Join(parts[1..], sep)
  }

  /** JavaScript's `s.split(sep)` for a one-character separator. */
  function Split(s: string, sep: char): (parts: seq<string>)
    ensures |parts| >= 1
    ensures forall k :: 0 <= k < |parts| ==> sep !in parts[k]
    ensures Join(parts, sep) == s
  {
    if |s| == 0 then [""]
    else
      var rest := Split(s[1..], sep);
      if s[0] == sep then
        assert ([""] + rest)[1..] == rest;
        [""] + rest
      else
        var parts := [[s[0]] + rest[0]] + rest[1..];
        assert parts[1..] == rest[1..];
        assert forall k :: 1 <= k < |parts| ==> parts[k] == rest[k];
        parts
  }

  lemma {:induction false} SplitNoSeparator(p: string, sep: char)
    requires sep !in p
    ensures Split(p, sep) == [p]
    decreases |p|
  {
    if |p| > 0 {
      SplitNoSeparator(p[1..], sep);
      assert [p[0]] + p[1..] == p;
    }
  }

  lemma {:induction false} SplitAfterSeparator(p: string, sep: char, t: string)
    requires sep !in p
    ensures Split(p + [sep] + t, sep) == [p] + Split(t, sep)
    decreases |p|
  {
    var s := p + [sep] + t;
    if |p| == 0 {
      assert s[1..] == t;
    } else {
      assert s[1..] == p[1..] + [sep] + t;
      SplitAfterSeparator(p[1..], sep, t);
      assert [p[0]] + p[1..] == p;
    }
  }

  /** Splitting what `Join` built gives the parts back, when no part holds the separator. */
  lemma {:induction false} SplitJoin(parts: seq<string>, sep: char)
    requires |parts| >= 1
    requires forall k :: 0 <= k < |parts| ==> sep !in parts[k]
    ensures Split(Join(parts, sep), sep) == parts
    decreases |parts|
  {
    if |parts| == 1 {
      SplitNoSeparator(parts[0], sep);
    } else {
      SplitJoin(parts[1..], sep);
      SplitAfterSeparator(parts[0], sep, Join(parts[1..], sep));
      assert [parts[0]] + parts[1..] == parts;
    }
  }

  /** `parts[parts.length - 1]` after `s.split(sep)`: the last `sep`-separated segment of `s`. */
  function LastSegment(s: string, sep: char): (r: string)
    ensures sep !in r
    ensures |r| <= |s| && r == s[|s| - |r|..]
    ensures |r| < |s| ==> s[|s| - |r| - 1] == sep
  {
    var parts := Split(s, sep);
    JoinEndsWithLast(parts, sep);
    parts[|parts| - 1]
  }

  lemma {:induction false} JoinEndsWithLast(parts: seq<string>, sep: char)
    requires |parts| >= 1
    ensures var s, last := Join(parts, sep), parts[|parts| - 1];
      |last| <= |s| && last == s[|s| - |last|..] && (|parts| >= 2 ==> |last| < |s| && s[|s| - |last| - 1] == sep)
    decreases |parts|
  {
    if |parts| >= 2 {
      JoinEndsWithLast(parts[1..], sep);
      var s, t := Join(parts, sep), Join(parts[1..], sep);
      assert s == parts[0] + [sep] + t;
      if |parts| == 2 {
        assert t == parts[1];
      }
    }
  }

  // ---- decimal digits ----

  predicate IsDigit(c: char) {
    '0' <= c <= '9'
  }

  predicate AllDigits(s: string) {
    forall k :: 0 <= k < |s| ==> IsDigit(s[k])
  }

  function DigitChar(d: nat): (c: char)
    requires d < 10
    ensures IsDigit(c)
  {
    ('0' as int + d) as char
  }

  function DigitValue(c: char): nat
    requires IsDigit(c)
  {
    c as int - '0' as int
  }

  /** The decimal numeral of `n`, as `String(n)` renders a non-negative integer. */
  function NatToString(n: nat): (r: string)
    ensures |r| >= 1 && AllDigits(r)
    decreases n
  {
    if n < 10 then [DigitChar(n)] else NatToString(n / 10) + [DigitChar(n % 10)]
  }

  /** `String(i)` for an integer `i`. */
  function IntToString(i: int): (r: string)
    ensures |r| >= 1
    ensures i < 0 <==> r[0] == '-'
    ensures i >= 0 ==> AllDigits(r)
  {
    if i < 0 then "-" + NatToString(-i) else NatToString(i)
  }

  /** The value of a string of decimal digits (the empty string reads as 0). */
  function DigitsValue(ds: string): nat
    requires AllDigits(ds)
  {
    if |ds| == 0 then 0 else 10 * DigitsValue(ds[..|ds| - 1]) + DigitValue(ds[|ds| - 1])
  }

  lemma {:induction false} DigitsValueOfNatToString(n: nat)
    ensures DigitsValue(NatToString(n)) == n
    decreases n
  {
    if n >= 10 {
      DigitsValueOfNatToString(n / 10);
      var s := NatToString(n);
      assert s[..|s| - 1] == NatToString(n / 10);
    }
  }

  /** The three digits of a group in a thousands-grouped numeral, leading zeros kept. */
  function ThreeDigits(g: nat): (r: string)
    requires g < 1000
    ensures |r| == 3 && AllDigits(r)
  {
    [DigitChar(g / 100), DigitChar(g / 10 % 10), DigitChar(g % 10)]
  }

  /** A numeral followed by a three-digit group has the value of the numeral times 1000 plus the group. */
  lemma DigitsValueThenGroup(ds: string, g: nat)
    requires AllDigits(ds) && g < 1000
    ensures AllDigits(ds + ThreeDigits(g))
    ensures DigitsValue(ds + ThreeDigits(g)) == DigitsValue(ds) * 1000 + g
  {
    var s := ds + ThreeDigits(g);
    assert AllDigits(s);
    assert s[..|s| - 1] == ds + [DigitChar(g / 100), DigitChar(g / 10 % 10)];
    assert s[..|s| - 2] == ds + [DigitChar(g / 100)];
    assert s[..|s| - 3] == ds;
    var v2 := DigitsValue(ds + [DigitChar(g / 100)]);
    assert (ds + [DigitChar(g / 100)])[..|ds|] == ds;
    assert v2 == 10 * DigitsValue(ds) + g / 100;
    var v1 := DigitsValue(ds + [DigitChar(g / 100), DigitChar(g / 10 % 10)]);
    assert (ds + [DigitChar(g / 100), DigitChar(g / 10 % 10)])[..|ds| + 1] == ds + [DigitChar(g / 100)];
    assert v1 == 10 * v2 + g / 10 % 10;
    assert DigitsValue(s) == 10 * v1 + g % 10;
  }

  /** A non-empty string of digits reads as its value. */
  lemma ParseDigits(ds: string)
    requires |ds| > 0 && AllDigits(ds)
    ensures ParseNumber(ds) == Some(DigitsValue(ds))
  {
    assert !IsWhitespace(ds[0]);
    assert TrimStart(ds) == ds;
    assert SignFree(ds) == ds;
    LeadingDigitsOfDigits(ds);
  }

  /** The longest prefix of `s` made of digits. */
  function LeadingDigits(s: string): (r: string)
    ensures |r| <= |s| && r == s[..|r|] && AllDigits(r)
    ensures |r| < |s| ==> !IsDigit(s[|r|])
  {
    if |s| > 0 && IsDigit(s[0]) then
      var r := LeadingDigits(s[1..]);
      assert [s[0]] + r == s[..|r| + 1];
      [s[0]] + r
    else ""
  }

  lemma {:induction false} LeadingDigitsOfDigits(s: string)
    requires AllDigits(s)
    ensures LeadingDigits(s) == s
    decreases |s|
  {
    if |s| > 0 {
      LeadingDigitsOfDigits(s[1..]);
    }
  }

  /**
   * `parseFloat(s)` read as an integer: leading white space is skipped, an
   * optional sign is read, then the integer digits; a fraction is truncated.
   * `None` stands for `NaN`: no digit before or right after the decimal point.
   */
  function ParseNumber(s: string): (r: Option<int>)
    ensures r.None? ==> LeadingDigits(SignFree(TrimStart(s))) == ""
  {
    var t := TrimStart(s);
    var u := SignFree(t);
    var ds := LeadingDigits(u);
    var fraction := |u| > |ds| + 1 && u[|ds|] == '.' && IsDigit(u[|ds| + 1]);
    if |ds| == 0 && !fraction then None
    else if |t| > 0 && t[0] == '-' then Some(0 - DigitsValue(ds))
    else Some(DigitsValue(ds))
  }

  function SignFree(t: string): (u: string)
    ensures u == t || (|t| > 0 && (t[0] == '-' || t[0] == '+') && u == t[1..])
  {
    if |t| > 0 && (t[0] == '-' || t[0] == '+') then t[1..] else t
  }

  /** The leading digits of a numeral followed by a non-digit are the numeral. */
  lemma {:induction false} LeadingDigitsOfNumeralThen(ds: string, rest: string)
    requires AllDigits(ds)
    requires |rest| > 0 ==> !IsDigit(rest[0])
    ensures LeadingDigits(ds + rest) == ds
    decreases |ds|
  {
    if |ds| > 0 {
      assert (ds + rest)[1..] == ds[1..] + rest;
      LeadingDigitsOfNumeralThen(ds[1..], rest);
    }
  }

  /** A numeral followed by text that starts with neither a digit nor '.' reads back as its number. */
  lemma ParseNumeralThen(n: nat, rest: string)
    requires |rest| > 0 && !IsDigit(rest[0]) && rest[0] != '.'
    ensures ParseNumber(NatToString(n) + rest) == Some(n)
  {
    var ds := NatToString(n);
    var s := ds + rest;
    assert s[0] == ds[0] && IsDigit(s[0]);
    assert TrimStart(s) == s by {
      assert !IsWhitespace(s[0]);
    }
    assert SignFree(s) == s;
    LeadingDigitsOfNumeralThen(ds, rest);
    assert s[|ds|] == rest[0];
    DigitsValueOfNatToString(n);
  }

  /** A numeral followed by text: it reads back as its number, and holds no other characters than the text's. */
  lemma NumeralThen(n: nat, rest: string)
    requires |rest| > 0 && !IsDigit(rest[0]) && rest[0] != '.'
    ensures ParseNumber(NatToString(n) + rest) == Some(n)
    ensures IsDigit((NatToString(n) + rest)[0])
    ensures forall c :: c in NatToString(n) ==> IsDigit(c)
  {
    ParseNumeralThen(n, rest);
    var ds := NatToString(n);
    assert forall k :: 0 <= k < |ds| ==> IsDigit(ds[k]);
  }

  /** Reading back the numeral `String(i)` gives `i`. */
  lemma ParseIntToString(i: int)
    ensures ParseNumber(IntToString(i)) == Some(i)
  {
    var s := IntToString(i);
    var n: nat := if i < 0 then -i else i;
    assert !IsWhitespace(s[0]);
    assert TrimStart(s) == s;
    var digits := NatToString(n);
    assert SignFree(s) == digits by {
      if i < 0 { assert s[1..] == digits; }
    }
    LeadingDigitsOfDigits(digits);
    DigitsValueOfNatToString(n);
  }

  /** The characters the price pattern `[0-9.-]` keeps. */
  predicate IsNumericChar(c: char) {
    IsDigit(c) || c == '.' || c == '-'
  }

  /** `s.replace(/[^0-9.-]/g, '')`: keeps digits, '.' and '-', in order, and drops everything else. */
  function KeepNumeric(s: string): (r: string)
    ensures |r| <= |s|
    ensures forall k :: 0 <= k < |r| ==> IsDigit(r[k]) || r[k] == '.' || r[k] == '-'
    ensures forall c :: c in r <==> c in s && IsNumericChar(c)
  {
    if |s| == 0 then ""
    else if IsNumericChar(s[0]) then [s[0]] + KeepNumeric(s[1..])
    else KeepNumeric(s[1..])
  }

  /** The removal works piece by piece: on a concatenation it is the concatenation of the pieces' results. */
  lemma {:induction false} KeepNumericAppend(a: string, b: string)
    ensures KeepNumeric(a + b) == KeepNumeric(a) + KeepNumeric(b)
    decreases |a|
  {
    if |a| > 0 {
      assert (a + b)[1..] == a[1..] + b;
      KeepNumericAppend(a[1..], b);
    } else {
      assert a + b == b;
    }
  }

  lemma {:induction false} KeepNumericOfNumeric(s: string)
    requires forall k :: 0 <= k < |s| ==> IsDigit(s[k]) || s[k] == '-'
    ensures KeepNumeric(s) == s
    decreases |s|
  {
    if |s| > 0 {
      KeepNumericOfNumeric(s[1..]);
      assert [s[0]] + s[1..] == s;
    }
  }

  /** A string without capital letters is its own lower-case form. */
  lemma LowerUnchanged(s: string)
    requires forall k :: 0 <= k < |s| ==> !('A' <= s[k] <= 'Z')
    ensures Lower(s) == s
  {
  }

  lemma {:induction false} LowerOfNumeric(s: string)
    requires forall k :: 0 <= k < |s| ==> IsDigit(s[k]) || s[k] == '-'
    ensures Lower(s) == s
  {
  }

  // ---- ordering ----

  /** JavaScript's `a < b` on strings: lexicographic order of the characters. */
  predicate LexLess(a: string, b: string)
    decreases |a|
  {
    if |a| == 0 then |b| > 0
    else if |b| == 0 then false
    else if a[0] != b[0] then a[0] < b[0]
    else LexLess(a[1..], b[1..])
  }

  lemma {:induction false} LexLessIrreflexive(a: string)
    ensures !LexLess(a, a)
    decreases |a|
  {
    if |a| > 0 {
      LexLessIrreflexive(a[1..]);
    }
  }

  lemma {:induction false} LexLessAsymmetric(a: string, b: string)
    ensures LexLess(a, b) ==> !LexLess(b, a)
    decreases |a|
  {
    if |a| > 0 && |b| > 0 && a[0] == b[0] {
      LexLessAsymmetric(a[1..], b[1..]);
    }
  }

  /** Two different strings are ordered one way or the other. */
  lemma {:induction false} LexLessTotal(a: string, b: string)
    ensures a == b || LexLess(a, b) || LexLess(b, a)
    decreases |a|
  {
    if |a| > 0 && |b| > 0 && a[0] == b[0] {
      LexLessTotal(a[1..], b[1..]);
      if a[1..] == b[1..] {
        assert a == [a[0]] + a[1..] && b == [b[0]] + b[1..];
      }
    }
  }
}

=== FILE: updates.dfy ===
/**
 * The updates feed: ads whose category matches one of the user's
 * interests, posted by someone else, fetched page by page with
 * duplicates kept out, and the day labels shown on each card.
 */
module UpdatesScreen {
  import opened Wrappers
  import opened Text
  import opened Sequences

  const AdsPerPage: int := 4
  const MsPerDay: int := 1000 * 60 * 60 * 24

  /** The signed-in user; missing interests are an empty list. */
  datatype Viewer = Viewer(uid: string, interests: seq<string>)

  /** An ad of the feed; a missing category is "". */
  datatype UpdateAd = UpdateAd(id: string, category: string, postedBy: string)

  /** The feed state: the shown ads, the badge count, the cursor and whether more pages may follow. */
  datatype Feed = Feed(ads: seq<UpdateAd>, count: int, lastVisible: Option<string>, hasMore: bool)

  /** An ad is of interest when its category contains some interest and someone else posted it. */
  predicate Matches(v: Viewer, ad: UpdateAd) {
    (exists k | 0 <= k < |v.interests| :: ad.category != "" && Contains(ad.category, v.interests[k]))
      && ad.postedBy != v.uid
  }

  function Ids(ads: seq<UpdateAd>): (r: seq<string>)
    ensures |r| == |ads| && forall k :: 0 <= k < |ads| ==> r[k] == ads[k].id
  {
    seq(|ads|, k requires 0 <= k < |ads| => ads[k].id)
  }

  predicate DistinctIds(ads: seq<UpdateAd>) {
    forall i, j :: 0 <= i < j < |ads| ==> ads[i].id != ads[j].id
  }

  predicate IsNew(ad: UpdateAd, existing: seq<string>) {
    ad.id !in existing
  }

  /** The cursor the next query starts after: none on a reset or before the first page. */
  function Cursor(st: Feed, reset: bool): (r: Option<string>)
    ensures reset ==> r.None?
    ensures !reset ==> r == st.lastVisible
  {
    if reset then None else st.lastVisible
  }

  /**
   * `fetchInterestedAds` given the page the query returned. A reset first
   * clears the cursor and re-enables paging. Without interests the list and
   * the count become empty; an empty page only stops paging; otherwise the
   * matching ads replace the list (reset) or are appended when not already
   * shown, and the count follows the list.
   */
  function FetchInterested(st: Feed, v: Viewer, reset: bool, page: seq<UpdateAd>): (r: Feed)
    ensures |v.interests| == 0 ==> r.ads == [] && r.count == 0
    ensures |v.interests| > 0 && |page| == 0 ==> r.ads == st.ads && r.count == st.count && !r.hasMore
    ensures |v.interests| > 0 && |page| > 0 ==>
      var matching := Filter(page, ad => Matches(v, ad));
      && (reset ==> r.ads == matching && r.count == |matching|)
      && (!reset ==> r.ads == st.ads + Filter(matching, ad => IsNew(ad, Ids(st.ads))) && r.count == |r.ads|)
      && r.lastVisible == Some(page[|page| - 1].id)
      && r.hasMore == (reset || st.hasMore)
  {
    var st1 := if reset then st.(lastVisible := None, hasMore := true) else st;
    if |v.interests| == 0 then st1.(ads := [], count := 0)
    else if |page| == 0 then st1.(hasMore := false)
    else
      var matching := Filter(page, ad => Matches(v, ad));
      var existing := if reset then [] else Ids(st.ads);
      var unseen := Filter(matching, ad => IsNew(ad, existing));
      var updated := if reset then matching else st.ads + unseen;
      st1.(ads := updated, count := if reset then |matching| else |updated|, lastVisible := Some(page[|page| - 1].id))
  }

  /** The matching ads are exactly the page's ads of interest, in page order. */
  lemma MatchingIsOrderedSubset(v: Viewer, page: seq<UpdateAd>)
    ensures var matching := Filter(page, ad => Matches(v, ad));
      && Subsequence(matching, page)
      && (forall ad :: ad in matching <==> ad in page && Matches(v, ad))
      && forall ad :: multiset(matching)[ad] == if Matches(v, ad) then multiset(page)[ad] else 0
  {
    FilterCounts(page, ad => Matches(v, ad));
  }

  /** Loading more never repeats an id: unique ids before and within the page stay unique. */
  lemma FetchKeepsIdsDistinct(st: Feed, v: Viewer, reset: bool, page: seq<UpdateAd>)
    requires DistinctIds(st.ads) && DistinctIds(page)
    ensures DistinctIds(FetchInterested(st, v, reset, page).ads)
  {
    if |v.interests| > 0 && |page| > 0 {
      var matching := Filter(page, ad => Matches(v, ad));
      SubsequenceKeepsDistinct(matching, page, (ad: UpdateAd) => ad.id);
      if !reset {
        var existing := Ids(st.ads);
        var unseen := Filter(matching, ad => IsNew(ad, existing));
        SubsequenceKeepsDistinct(unseen, matching, (ad: UpdateAd) => ad.id);
        var all := st.ads + unseen;
        forall i, j | 0 <= i < j < |all| ensures all[i].id != all[j].id {
          if i < |st.ads| && j >= |st.ads| {
            assert all[j] in unseen;
            assert all[i].id == existing[i];
          }
        }
      }
    }
  }

  /** The label under each card. */
  datatype DateLabel = Shown(text: string) | LocaleDate(ms: int)

  function Abs(x: int): nat {
    if x < 0 then -x else x
  }

  /**
   * `formatDate`: nothing for a missing timestamp; otherwise whole days
   * between now and the date, in either direction, as "Today", "1 day ago",
   * "n days ago" below a week, and the date itself from a week on.
   */
  function FormatDate(timestamp: Option<int>, now: int): (r: DateLabel)
    ensures timestamp.None? ==> r == Shown("")
    ensures timestamp.Some? ==>
      var diff := Abs(now - timestamp.value);
      && (r == Shown("Today") <==> diff < MsPerDay)
      && (r == Shown("1 day ago") <==> MsPerDay <= diff < 2 * MsPerDay)
      && (r.LocaleDate? <==> diff >= 7 * MsPerDay)
      && (r.LocaleDate? ==> r.ms == timestamp.value)
      && (2 * MsPerDay <= diff < 7 * MsPerDay ==>
          exists n: nat | 2 <= n < 7 :: n * MsPerDay <= diff < (n + 1) * MsPerDay && r == Shown(NatToString(n) + " days ago"))
  {
    if timestamp.None? then Shown("")
    else
      var diffDays := Abs(now - timestamp.value) / MsPerDay;
      if diffDays == 0 then Shown("Today")
      else if diffDays == 1 then Shown("1 day ago")
      else if diffDays < 7 then
        DaysAgoDiffers(diffDays);
        Shown(NatToString(diffDays) + " days ago")
      else LocaleDate(timestamp.value)
  }

  lemma DaysAgoDiffers(n: nat)
    requires 2 <= n < 7
    ensures NatToString(n) + " days ago" != "Today"
    ensures NatToString(n) + " days ago" != "1 day ago"
  {
    assert NatToString(n) == [DigitChar(n)];
    assert (NatToString(n) + " days ago")[0] != '1';
  }

  /** The number in an "n days ago" label reads back as the day count. */
  lemma DaysAgoReadsBack(n: nat)
    requires 2 <= n < 7
    ensures ParseNumber(NatToString(n) + " days ago") == Some(n)
  {
    ParseNumeralThen(n, " days ago");
  }
}

=== FILE: wrappers.dfy ===
/** Optional values and success/failure results shared by every screen model. */
module Wrappers {

  /** A value that may be missing: JavaScript's `undefined`/`null` field. */
  datatype Option<+T> = None | Some(value: T) {

    /** The value, or `default` when it is missing. */
    function GetOr(default: T): T {
      match this
      case Some(v) => v
      case None => default
    }
  }

  /** The outcome of an operation that either produces a value or reports why it refused. */
  datatype Result<+T, +E> = Ok(value: T) | Err(error: E)
}
